=== FILE: README.md ===
# NfoGenerator core in Dafny

This project models the engine that turns StashApp catalog records into Kodi/Jellyfin NFO
documents. A record is a scene, a performer or a gallery, read as untyped JSON. The engine
has three stages, and the model follows them:

- **Detection and validation** (`parsers.py`, module `Parsers`). A first-match rule list
  over the keys a record has decides its kind. Three validators check for the minimal keys
  of each kind.
- **Conversion** (`converters.py`, modules `Converters` and `Dates`). This stage builds the
  intermediate NFO dict:
  - title and plot copying;
  - the rating doubled, with a fallback to 0;
  - best-effort date normalisation over an ordered format list;
  - the year, from a strict re-parse of the original date string;
  - the runtime in whole minutes;
  - the `uniqueid` record;
  - genres;
  - positional actor construction;
  - the performer biography.
- **Rendering** (`nfo_generator.py`, modules `Elements` and `NfoGenerator`). This stage builds
  the `<movie>` or `<actor>` element tree from the NFO dict. It then frames the serialised
  text with the XML declaration and, in pretty mode, drops whitespace-only lines.

Module `Pipeline` chains the two later stages, the way the command-line tool does. It states
what the NFO of a converted record contains.

Python semantics the code relies on are written out:
- truthiness (`Json.Truthy`);
- `dict.get` with and without a default on insertion-ordered dicts (`Json.Get`, `Json.GetOr`);
- `float()` on strings and `int()` truncation toward zero (`PyText`);
- `str()` (`Json.PyStr`), including the float text with its positional and exponent forms
  (`PyText.FloatText`) and the quoting and escaping of `repr()` of a string (`Json.StrRepr`);
- `str.split`, `str.join` and `str.strip` (`PyText`).

The exceptions the code lets escape are `Result` errors:
- `ValueError` for an unsupported kind;
- `AttributeError` when `_convert_date` is handed a truthy non-string;
- `TypeError` for `', '.join` over a non-string alias, for iterating a non-iterable
  `genres`/`actors`, and for serialising a tree whose text is a truthy non-string or
  whose attribute value `_escape_attrib` rejects;
- `ExpatError` when, in pretty mode, minidom cannot parse the serialised text back.

`OverflowError` also escapes the code. `float()` raises it for an integer rating or
duration beyond the double range, and `int()` raises it for the infinite quotient of a
duration text beyond that range. The model reads floats as exact reals, so it does not
raise OverflowError (see "## Left out").

ElementTree accepts any object as element text or attribute value. It only objects when the
tree is written, so both are `Json` values and `Elements.Serializable` says when writing
succeeds. Text must be a string or falsy. An attribute value must be a string, or a list or
dict none of whose items (keys) is one of the strings `_escape_attrib` tests for; such a
list or dict is written as its `str()` (`Elements.AttrOk`).

Each converted dict is modelled as its fixed key list plus the values assigned, with `None`
where the source skips the assignment (`Records`). Each element tree is modelled as one block
of children per tag, laid out in order (`Seqs.Concat`). The per-tag view `Elements.WithTag`
(ElementTree's `findall`) recovers each block exactly (`Elements.ConcatWithTag`).

## Model

| member | source | states |
|---|---|---|
| Parsers.DetectType | parsers.py:41-57 | The kind is one of the four strings. A mapping under `file` always gives "scene". "gallery" needs `performers` and `folder` or `scenes`. "performer" needs a performer key. "unknown" means no `file` mapping, no performer key and no basic key. |
| Parsers.PerformerKeysWin | parsers.py:46-47 | Without a `file` mapping, any of gender/birthdate/ethnicity/measurements gives "performer", whatever else is present. |
| Parsers.GalleryExactly | parsers.py:50-51 | "gallery" holds iff there is no `file` mapping, no performer key, and `performers` with `folder` or `scenes`. So `folder`/`scenes` alone never make a gallery. |
| Parsers.SceneExactly | parsers.py:41-55 | "scene" holds iff `file` is a mapping, or the performer and gallery rules fail and a basic metadata key is present. |
| Parsers.PlainFileIsUnknown | parsers.py:41-57 | A record whose only key is a non-mapping `file` is "unknown". |
| Parsers.KindDependsOnKeysOnly | parsers.py:41-57 | Records with the same keys that agree on whether `file` is a mapping get the same kind. |
| Parsers.ValidatorsReadKeysOnly | parsers.py:70-96 | The three validators depend on key presence only. |
| Parsers.ValidatorKeys | parsers.py:70-96 | Scene needs `title` or `file`, performer needs `name`, gallery needs `title` or `folder`. Each accepts its key with any value and rejects the empty record. |
| Parsers.FileSceneValidates | parsers.py:41-70 | A record detected as a scene through its `file` mapping also validates as a scene. |
| Parsers.DetectionIsNotValidation | parsers.py:46-96 | A bare `gender` record is a performer that fails validation. A `scenes`+`performers` record is a gallery that fails validation. |
| Converters.Convert | converters.py:24-31 | "scene", "performer" and "gallery" go to their converters. Any other kind fails with ValueError("Unsupported data type: " + kind). |
| Converters.UserRating | converters.py:43-51 | The rating is a float exactly when `float(rating)` succeeds, and is then twice that number. Otherwise it is the int 0, which covers a missing or None rating. |
| Converters.RatingOfWholeNumber | converters.py:43-47 | An integer rating n, or its decimal text, gives the float 2n. |
| Converters.RatingFallback | converters.py:43-51 | A None, list, mapping or unparsable string rating gives 0. |
| Converters.DateSlots | converters.py:54-61 | A truthy non-string date is an AttributeError. Otherwise `premiered` is set iff the date is truthy, to the normalised date. `year` is set iff the unsplit date parses strictly as `%Y-%m-%d`, to that year. |
| Converters.Runtime | converters.py:86-94 | A runtime exists iff `file` (default {}) is a mapping whose `duration` is truthy and accepted by `float()`. |
| Converters.RuntimeOfSeconds | converters.py:86-94 | A non-zero integer duration gives `int(secs / 60)`, truncated toward zero. Under a minute this is 0. |
| Converters.NoRuntime | converters.py:86-94 | A non-mapping `file`, or a falsy duration, gives no runtime. |
| Converters.Actors | converters.py:185-201 | The actor list is no longer than the performer list. |
| Converters.ActorsKept | converters.py:187-199 | Exactly the string and mapping entries are kept, in input order. The k-th actor is built from the k-th kept entry. |
| Converters.ActorOrders | converters.py:187-199 | Each actor's `order` is the original index of its entry, so orders strictly increase even across skipped entries. |
| Converters.ActorContent | converters.py:188-195 | A string entry gives {order: i, name: entry, role: ""}. A mapping entry gives its name and role, defaulting to "". |
| Converters.DuplicateNamesKept | converters.py:187-199 | Two equal name strings give two actors, one per index. |
| Converters.Biography | converters.py:284-289 | The biography fails with TypeError exactly when `aliases` is a non-empty list with a non-string item. |
| Converters.BioLinesSpec | converters.py:242-282 | There is one `Label: str(value)` line per truthy field, in the fixed order Gender … Piercings, and a field contributes exactly when it is truthy. |
| Converters.JoinEmpty | converters.py:289 | Joining non-empty lines gives "" exactly when there are no lines. |
| Converters.EmptyBiography | converters.py:242-289 | The biography is "" iff no biography field is truthy and there is no alias list. |
| Converters.BiographySplits | converters.py:284-289 | Splitting the biography on "\n" gives back the field lines, followed by the `Aliases: a, b` line when aliases is a non-empty list. |
| Converters.ConvertScene | converters.py:33-96 | A scene fails only through its date, with AttributeError. Otherwise it is the scene key list filled in source order. |
| Converters.SceneShape | converters.py:35-96 | The scene dict's keys follow the assignment order, each read-back gives the assigned value, and there is no `media_type`. |
| Converters.SceneRecord | converters.py:35-96 | A converted scene keeps key order, stores the user rating and the runtime slot, and has no `media_type`. |
| Converters.SceneDates | converters.py:53-61 | A converted scene's `premiered` and `year` are the date slots. |
| Converters.SceneLists | converters.py:75-83 | `genres` is the tag list when it is a list. `actors` is the converted performer list when that is a list. |
| Converters.ConvertGallery | converters.py:134-178 | A gallery fails only through its date. Otherwise it is the gallery key list filled in source order. |
| Converters.GalleryShape | converters.py:136-178 | The gallery dict has key order, premiered/year/media_type read back, and neither `userrating` nor `runtime`. |
| Converters.GalleryRecord | converters.py:134-178 | A converted gallery never has `userrating` or `runtime`, always has `media_type` "gallery", and carries the date slots. |
| Converters.GalleryLists | converters.py:165-173 | A gallery's `genres` and `actors` follow the same rules as a scene's. |
| Converters.BirthdateSlot | converters.py:108-110 | A truthy non-string birthdate is an AttributeError. Otherwise a truthy birthdate gives its normalised date and a falsy one gives no slot. |
| Converters.ConvertPerformer | converters.py:98-132 | A biography error comes first. After it, the only failure is the birthdate's. Errors are TypeError or AttributeError. |
| Converters.PerformerRecord | converters.py:101-132 | A converted performer has its keys in order and the built biography. It has `birthdate` iff the input birthdate is truthy, and the fixed `details` and `social` mappings. |
| Converters.PerformerNameAndBirth | converters.py:104-110 | The performer's `name` is the input's, default "". `birthdate` is exactly the birthdate slot, so the normalised date for a truthy birthdate. |
| Converters.PerformerDetails | converters.py:113-123 | `details` holds the nine keys in source order, each with the input's value or its default ("", or `[]` for `aliases`). |
| Converters.PerformerDetailsGet | converters.py:113-123 | Reading a listed key from `details` gives the input's value or the key's default. Any other key is absent. |
| Converters.PerformerSocial | converters.py:126-130 | `social` holds `url`, `twitter` and `instagram` in that order, each with the input's value or "". |
| Converters.PerformerSocialGet | converters.py:126-130 | Reading a listed key from `social` gives the input's value or "". Any other key is absent. |
| Converters.UniqueId | converters.py:66-73 | A `uniqueid` record exists iff the url is truthy. It is {type: "stash", value: url, default: True}, in that order. |
| Converters.SceneCopies | converters.py:38-40 | A scene's `title` is the input title (default ""). `originaltitle` equals it. `plot` is the input `details`. |
| Converters.SceneStudioAndId | converters.py:63-73 | A scene's `studio` is the input's (default ""). Its `uniqueid` is the url record, absent without a truthy url. |
| Converters.GalleryCopies | converters.py:139-163 | A gallery copies `title`, `originaltitle`, `plot`, `studio` and `uniqueid` as a scene does. |
| Dates.Strptime | converters.py:229-231 | A successful parse is a valid calendar date, with leap years and year 1–9999. |
| Dates.FirstParseSpec | converters.py:227-234 | Formats are tried in order and the first that parses wins. None parsing gives no result. |
| Dates.NormalizeDate | converters.py:213-237 | "" iff the input is "". The result is the input unchanged or canonical `YYYY-MM-DD`. No match returns the input. The first matching format decides the rendering. |
| Dates.ConvertDate | converters.py:203-237 | A falsy value gives "". A truthy string gives its normalisation, which is never "". A truthy non-string fails with AttributeError. |
| Dates.StrictYear | converters.py:57-61 | The year exists iff the value is a string that parses strictly as `%Y-%m-%d`, and is then that date's year. |
| Dates.RenderParse | converters.py:232 | Rendering a date as `%Y-%m-%d` and parsing it back gives the same date. |
| Dates.RenderCanonical | converters.py:232 | Every rendered date is canonical. |
| Dates.StrictParseNormalizes | converters.py:217-232 | A string that parses as `%Y-%m-%d` normalises to the rendering of that date. |
| Dates.CanonicalUnchanged | converters.py:217-232 | A canonical `YYYY-MM-DD` string is returned unchanged. |
| Dates.NormalizeIdempotent | converters.py:213-237 | Normalising twice is normalising once. |
| Dates.YearAgreesWithPremiered | converters.py:54-61 | When a year is derived, `premiered` parses strictly to the same year. |
| Dates.SlashSkipsIso | converters.py:217-225 | A slashed date has no `T` and fails all three ISO formats. |
| Dates.SlashDayFirst | converters.py:221-232 | dd/mm/yyyy that is a valid day-first date renders day-first, e.g. "25/12/2023" to "2023-12-25" and "01/02/2023" to "2023-02-01". |
| Dates.SlashMonthFirst | converters.py:222-232 | mm/dd/yyyy is read month-first only when the day-first reading is invalid. |
| Dates.TimestampKeepsDate | converters.py:54-61 | "YYYY-MM-DDT…" normalises to its date part, but no year is derived from it. |
| Json.Iterate | nfo_generator.py:84-96 | `for x in v` succeeds for lists, strings and mappings only, and yields a list's items. |
| Json.TruthyItems | nfo_generator.py:85-87 | Only truthy items are kept, from the input. All-truthy input is kept whole. |
| Json.TruthyItemsAppend | nfo_generator.py:85-87 | Filtering a concatenation is filtering each part. With the one-item case this keeps every truthy item once, in input order. |
| Json.TruthyItemsOne | nfo_generator.py:85-87 | A single item is kept exactly when it is truthy. |
| Json.ToFloat | converters.py:47 | `float()` of ints, floats, bools and strings. None, lists and mappings are rejected. |
| Json.PyStr | nfo_generator.py:53 | `str()` of a string is itself. Of anything else it is non-empty. |
| PyText.Trunc | converters.py:92 | `int()` of a float truncates toward zero. |
| PyText.TruncDiv60 | converters.py:92 | `int(d / 60)` for integer d is Euclidean division for d ≥ 0 and rounds toward zero for d < 0. |
| PyText.ParseFloatIntText | converters.py:47 | `float()` of an integer's decimal text is that integer. |
| PyText.FloatTextWhole | nfo_generator.py:53 | `str()` of a whole float below 10^16 in magnitude is the integer followed by ".0". |
| PyText.FloatTextPow10 | nfo_generator.py:53 | `str()` of 10^k for k ≥ 16 is "1e+k", in exponent form. |
| PyText.FloatTextSmall | nfo_generator.py:53 | Example: `str(0.00002)` is "2e-05". |
| PyText.FloatTextSmallForm | nfo_generator.py:53 | Every positive value below 10^-4 prints in exponent form, with an exponent of -5 or less. |
| PyText.ExponentTexts | nfo_generator.py:53 | Examples of the exponent suffix, signed and at least two digits: "e+16", "e-05", "e+100". |
| Json.StrRepr | nfo_generator.py:137-139 | `repr()` of a string is quoted at both ends with the quote `repr` chooses. |
| Json.StrReprOneLine | nfo_generator.py:137-139 | `repr()` of a string never holds a raw newline, carriage return or tab. |
| Json.StrReprPlain | nfo_generator.py:137-139 | A string whose characters all print as themselves is its repr without the quotes. |
| Json.StrReprQuoteExample | nfo_generator.py:137-139 | Example: `repr("it's")` is shown in double quotes. |
| Json.StrReprNewlineExample | nfo_generator.py:137-139 | Example: `repr("a\nb")` shows the newline as `\n`, in single quotes. |
| Json.Get | converters.py:38-40 | `d.get(k)` finds a value only if the pair (k, value) is in the dict. It finds nothing iff no entry has key k. |
| Json.GetOr | converters.py:38-40 | `d.get(k, default)` gives the stored value when k is present, and the default otherwise. |
| Json.GetFirst | converters.py:38-40 | A lookup returns the first entry with the key. |
| Records.GetListed | converters.py:113-130 | In a dict whose keys are a distinct key list, each key finds its own entry and no other key finds anything. |
| Dates.Render | converters.py:232 | `%Y-%m-%d` text is always ten characters. |
| PyText.JoinSplit | nfo_generator.py:185-186 | Splitting then joining on one character gives the string back. |
| PyText.SplitJoin | nfo_generator.py:185-186 | Joining parts free of the separator and splitting gives the parts back. |
| Records.SlotGet | converters.py:35-96 | Reading a key from a dict built by assignments gives the value assigned, or nothing when it was skipped. |
| Records.NoSlotNoKey | converters.py:136-176 | A key no assignment names is absent. |
| Records.PresentInOrder | converters.py:35-96 | The built dict lists its keys in assignment order. |
| Seqs.FilterMapSpec | converters.py:187-199 | A skip-or-keep loop keeps exactly the positions it produces a result for, in increasing order. The k-th output comes from the k-th kept position. |
| Elements.TextElem | nfo_generator.py:162-164 | `_add_text_element` creates a leaf whose text is the given text, or "" when that is falsy. Its truthiness matches the given text's, and it is never None. |
| Elements.Str | nfo_generator.py:137-139 | `str()` text is always a string, and non-empty for a truthy value. |
| Elements.WhenTruthy | nfo_generator.py:56-58 | A conditional element is emitted once for a truthy value and not at all otherwise. |
| Elements.TextBlock | nfo_generator.py:85-87 | One leaf per value, in order. |
| Elements.WhenTruthySerializable | nfo_generator.py:177 | A conditional leaf can be written iff its value is a string or falsy. |
| Elements.LeafSerializable | nfo_generator.py:177 | A leaf without attributes can be written iff its text can. |
| NfoGenerator.UniqueIdElems | nfo_generator.py:75-81 | One `uniqueid` element for a truthy mapping, none otherwise. |
| NfoGenerator.ActorElems | nfo_generator.py:95-110 | At most one `actor` element per entry. |
| NfoGenerator.MovieBlocks | nfo_generator.py:44-110 | The movie's children form twelve blocks, and block k only holds elements with the k-th tag of the fixed order. |
| NfoGenerator.MovieTree | nfo_generator.py:84-96 | Rendering a movie fails, with TypeError, exactly when `genres` or `actors` cannot be iterated. |
| NfoGenerator.DetailElems | nfo_generator.py:132-139 | A falsy detail adds nothing. A list adds one element per truthy item, the i-th holding `str()` of the i-th truthy item. Any other value adds one `str()` element. All texts are non-empty strings. |
| NfoGenerator.DetailsElems | nfo_generator.py:130-139 | Detail elements are leaves with non-empty string text. |
| NfoGenerator.SocialElems | nfo_generator.py:142-146 | Social elements are string-text leaves, at most one per entry. |
| NfoGenerator.Generate | nfo_generator.py:35-40 | "scene" and "gallery" render a movie, "performer" an actor, and anything else is ValueError. |
| NfoGenerator.NonBlankLines | nfo_generator.py:185 | The kept lines come from the input and none is whitespace-only. |
| NfoGenerator.NonBlankLinesKeep | nfo_generator.py:185 | Lines with no blank among them are all kept. |
| NfoGenerator.NonBlankLinesAppend | nfo_generator.py:185 | Filtering a concatenation is filtering each part. With the one-line case this keeps every non-blank line once, in order. |
| NfoGenerator.NonBlankLinesOne | nfo_generator.py:185 | A single line is kept exactly when it is not whitespace-only. |
| NfoGenerator.FormatXml | nfo_generator.py:188-194 | The output starts with the declaration. In compact mode the body follows it directly. |
| NfoGenerator.GenerateXml | nfo_generator.py:177-194 | Tree errors propagate. A tree with truthy non-string text, or an attribute value `_escape_attrib` rejects, is TypeError. In pretty mode a parse failure is ExpatError. Otherwise the result is the framed serialisation. |
| NfoGenerator.MovieChildren | nfo_generator.py:44-110 | The movie's children with the p-th tag are exactly block p. |
| NfoGenerator.MovieLayout | nfo_generator.py:44-110 | The movie's children follow the fixed tag order title … actor and carry no other tag. |
| NfoGenerator.MovieAlways | nfo_generator.py:47-49 | title, originaltitle and plot each appear exactly once. |
| NfoGenerator.MovieUserRating | nfo_generator.py:52-53 | userrating appears exactly once, as `str()` of the stored value. |
| NfoGenerator.MovieOptional | nfo_generator.py:56-72 | premiered, year, studio and runtime appear once when truthy and not at all otherwise. year and runtime are written through `str()`. |
| NfoGenerator.FalsyFieldsVanish | nfo_generator.py:65-72 | A runtime of 0 and an empty studio produce no element. |
| NfoGenerator.GenresAndTags | nfo_generator.py:84-92 | One `genre` and one `tag` per truthy genre, same count, same order, same text. |
| NfoGenerator.UniqueIdRules | nfo_generator.py:75-81 | `uniqueid` appears only for a truthy mapping. `type` defaults to "stash". `default="true"` appears iff `default` is truthy. The text is the value. |
| NfoGenerator.UniqueIdSerializable | nfo_generator.py:75-81 | The `uniqueid` element can be written iff `_escape_attrib` accepts its `type` and its `value` is writable text. |
| NfoGenerator.UniqueIdListTypeWritable | nfo_generator.py:78 | A `type` of `[]` is kept as the attribute value and the element can still be written. |
| NfoGenerator.MovieActorElems | nfo_generator.py:95-98 | Exactly the mapping entries produce `actor` elements, in order. |
| NfoGenerator.ActorElemRules | nfo_generator.py:99-110 | Inside `actor`: name if non-empty, role if non-empty, order whenever it is not None, in that order. |
| NfoGenerator.ActorNameFirst | nfo_generator.py:119 | The performer's first child is always `name`. |
| NfoGenerator.ActorLayout | nfo_generator.py:116-148 | The performer's children are name, then biography and birthdate when truthy, then the details elements, then the social elements. |
| NfoGenerator.ActorTree | nfo_generator.py:114-148 | The performer's `<actor>` has no attributes or text. Its children are the name (default ""), then biography and birthdate when truthy, then the `details` and `social` elements when those are mappings. |
| NfoGenerator.DetailsAppend | nfo_generator.py:130-139 | Details render entry by entry in insertion order. |
| NfoGenerator.DetailsSingle | nfo_generator.py:132-139 | One details entry renders as its detail elements. |
| NfoGenerator.SocialSpec | nfo_generator.py:142-146 | One social element per truthy value, in insertion order, tagged with its key. |
| NfoGenerator.ActorTreeSerializable | nfo_generator.py:119-146 | The performer tree can be written iff name, biography and birthdate are strings or falsy. |
| NfoGenerator.TailSerializable | nfo_generator.py:130-146 | Every element added for `details` and `social` can be written, because its text goes through `str()`. |
| NfoGenerator.GenerateKinds | nfo_generator.py:35-40 | A ValueError arises iff the kind is unsupported. The root is "actor" for performers and "movie" otherwise. A performer never fails. |
| NfoGenerator.JoinLines | nfo_generator.py:185-186 | Joined non-blank lines split back into themselves. |
| NfoGenerator.DropBlankLinesSpec | nfo_generator.py:185-186 | The filtered text is "" iff no line is non-blank. Otherwise its lines are exactly the non-blank lines. |
| NfoGenerator.DropBlankLinesIdempotent | nfo_generator.py:185-186 | Filtering blank lines twice is filtering once. |
| NfoGenerator.PrettyLines | nfo_generator.py:185-192 | Pretty output is the declaration line followed by the non-blank body lines. |
| NfoGenerator.DeclarationOneLine | nfo_generator.py:189 | The declaration is a single line. |
| Pipeline.SameKindsRejected | converters.py:24-31 | Converter and renderer reject exactly the same kinds with the same ValueError. |
| Pipeline.ConvertedSceneRenders | converters.py:75-83 | A converted scene always renders, reading its genres and converted actors. |
| Pipeline.ConvertedGalleryRenders | converters.py:165-173 | A converted gallery always renders. |
| Pipeline.SceneUniqueIdElement | converters.py:66-73 | A scene with a truthy url has exactly one `<uniqueid type="stash" default="true">` holding the url. Without one it has none. |
| Pipeline.UniqueIdFromUrl | nfo_generator.py:75-81 | The url record renders as that one element, and no record renders nothing. |
| Pipeline.UniqueIdOfUrl | nfo_generator.py:75-81 | The record built from a url renders as `type="stash"`, `default="true"`, with the url as text. |
| Pipeline.GalleryRatingIsZero | nfo_generator.py:52-53 | A gallery's NFO has exactly one `userrating`, with text "0". |
| Pipeline.ScenePremieredElement | converters.py:54-56 | A scene's `premiered` element holds the normalised date and exists iff the date is set. |
| Pipeline.PremieredFromDate | nfo_generator.py:56-58 | A non-empty premiere string gives one `premiered` element. |
| Pipeline.SceneYearElement | converters.py:57-61 | A scene's `year` element exists iff the date parses strictly, and holds that year. |
| Pipeline.YearFromSlot | nfo_generator.py:60-62 | A positive int year gives one `year` element with its digits. |
| Pipeline.TimestampHasNoYear | converters.py:54-61 | A "YYYY-MM-DDT…" date gives `premiered` with the date part and no `year` element. |
| Pipeline.SceneRuntimeElement | converters.py:86-94 | Under 60 seconds there is no `runtime` element. Otherwise it holds the whole minutes. |
| Pipeline.RuntimeFromMinutes | nfo_generator.py:70-72 | A positive int runtime gives one `runtime` element. A runtime of 0 gives none. |

## Left out

- `stash_api.py` (network client), `stash_to_nfo.py` (command line, file system, prompts)
  and `StashParser.parse_file` (file reading and `json.load`) are not part of this model. The
  pipeline starts from an already parsed record.
- Image extraction has no code in the repository's core and is not modelled.
- ElementTree and minidom serialisation internals are not modelled: escaping, attribute
  quoting, indentation, self-closing tags, and the validity of tag names taken from
  `details`/`social` keys. Serialisation is a function parameter of
  `NfoGenerator.GenerateXml`. Only its failure on unwritable text or attribute values and the declaration and
  blank-line framing around it are modelled.
- Dates.Strptime: models `datetime.strptime` for these formats only. `%Y` is four ASCII
  digits, `%m`/`%d` are one or two digits, and the date must be valid with leap years. The
  whole string must be consumed. A space-padded `%d`, non-ASCII digits and locale effects
  are not modelled.
- Dates.Render: pads `%Y` to four digits. The C library leaves years below 1000 unpadded, so
  those years render differently.
- PyText.ParseFloat: accepts only `[+-]digits[.digits]`. Python's `float()` also accepts
  surrounding whitespace, underscores, exponents, `inf` and `nan`, which are not modelled.
- PyText.FloatText: `str()` of a float is read off its exact real value. Positional text is
  used for 1e-4 <= |x| < 1e16 and exponent text otherwise, as Python does. Binary double
  rounding and the shortest-round-trip digit choice are not modelled: a non-whole value's
  digits are its decimal expansion cut at 17 places (mantissas in exponent form likewise),
  and the search for a small value's exponent stops at 400 places.
- Json.StrRepr: `repr()` of a string escapes the backslash, the chosen quote, control
  characters, 0x7f-0xa0 and 0xad. Other non-printable non-ASCII characters (as Python's
  `str.isprintable` classifies them) are kept as they are.
- Converters.UserRating and Converters.Runtime: floating-point rounding is not modelled. The
  doubling and the division by 60 are exact on reals. Python's `float()` of an integer, or of
  its decimal text, rounds to 53 significant bits once the magnitude passes 2^53. For
  example, `float(2**53 + 1) == 2**53`, so a rating of 2^53 + 1 is stored as 2^54. The model
  keeps the exact integer.
- Converters.UserRating, Converters.Runtime and Json.ToFloat: the double range is not
  modelled. An integer of magnitude at least 2^1024 - 2^970 makes Python's `float()` raise
  OverflowError. `except (ValueError, TypeError)` does not catch it, so `convert` raises. A
  decimal text beyond that range gives `inf`, which the rating doubles. For a duration,
  `int(inf / 60)` raises OverflowError. The model gives the exact value in every case.
- RatingOfWholeNumber: holds as stated for |n| <= 2^53. Above that, `float()` rounds the integer
  or its text, so the program stores twice the rounded value (2^54 for n = 2^53 + 1). From
  2^1024 - 2^970 on, an integer raises OverflowError and its text gives `inf`.
- RuntimeOfSeconds: holds as stated for |secs| <= 2^53. Above that, `float()` rounds the
  duration before the division. For secs = 9007199254741019 the program gives
  150119987579017 minutes, while the exact quotient truncates to 150119987579016. From
  2^1024 - 2^970 on, the program raises OverflowError.
- Pipeline.SceneRuntimeElement: the minutes it states are exact, and they match the program
  for durations up to 2^53 in magnitude, as for RuntimeOfSeconds.
- Json.ToFloat: JSON records with `NaN`, `Infinity` or `-Infinity`, which `json.load` accepts,
  are outside the model, because `JFloat` holds a real. For example, a rating of NaN renders
  as `str(nan * 2) == "nan"`.
- Json.Get: a JSON object with duplicate keys is read first-match. `json.load` keeps the
  last value, so records with duplicate keys are outside the model.

=== FILE: converters.dfy ===
/**
  The field mapping of `StashToNfoConverter` (converters.py): a scene, gallery or
  performer record becomes the dict the NFO generator renders. Every output dict is
  written as its list of assignments (see Records), so that the order of its keys and the
  conditions under which each is set can be read off and reasoned about.
 */
module Converters {
  import opened Wrappers
  import opened PyText
  import opened Json
  import opened Dates
  import opened Seqs
  import opened Records

  /** The keys `_convert_scene` may set, in the order it sets them. */
  const SceneFields := ["title", "originaltitle", "plot", "userrating", "premiered", "year",
                        "studio", "uniqueid", "genres", "actors", "runtime"]

  /** The keys `_convert_gallery` may set, in the order it sets them. */
  const GalleryFields := ["title", "originaltitle", "plot", "premiered", "year", "studio",
                          "uniqueid", "genres", "actors", "media_type"]

  /** The keys `_convert_performer` may set, in the order it sets them. */
  const PerformerFields := ["name", "biography", "birthdate", "details", "social"]


  // ---------------------------------------------------------------------------
  // Single fields
  // ---------------------------------------------------------------------------

  /** `float(rating) * 2`, or the int 0 when the rating is missing, None, or not
      something `float()` accepts. */
  function UserRating(d: Dict): (r: Json)
    ensures r.JFloat? || r == JInt(0)
    ensures r.JFloat? <==> ToFloat(Lookup(d, "rating")).Some?
    ensures r.JFloat? ==> r.f / 2.0 == ToFloat(Lookup(d, "rating")).value
  {
    var rating := Lookup(d, "rating");
    if rating.JNull? then JInt(0)
    else
      match ToFloat(rating)
      case Some(x) => JFloat(x * 2.0)
      case None => JInt(0)
  }

  /** `premiered` and `year`: set only for a truthy date; the premiere date is the
      normalised date, the year comes from a strict `%Y-%m-%d` parse of the original. */
  function DateSlots(d: Dict): (r: Result<(Option<Json>, Option<Json>)>)
    ensures r.Err? <==> Truthy(Lookup(d, "date")) && !Lookup(d, "date").JStr?
    ensures r.Err? ==> r.error.AttributeError?
    ensures r.Ok? ==> r.value.0 == if Truthy(Lookup(d, "date")) then Some(JStr(NormalizeDate(Lookup(d, "date").s))) else None
    ensures r.Ok? ==> (r.value.1.Some? <==> Truthy(Lookup(d, "date")) && Strptime(Lookup(d, "date").s, Iso).Some?)
    ensures r.Ok? && r.value.1.Some? ==> r.value.1 == Some(JInt(Strptime(Lookup(d, "date").s, Iso).value.year))
  {
    var date := Lookup(d, "date");
    if !Truthy(date) then Ok((None, None))
    else
      var premiered :- ConvertDate(date);
      var year := match StrictYear(date)
        case Some(y) => Some(JInt(y))
        case None => None;
      Ok((Some(JStr(premiered)), year))
  }

  /** The `uniqueid` record built from a truthy `url`: type "stash", the url as its
      value, and `default` True, in that key order. */
  function UniqueId(d: Dict): (r: Option<Json>)
    ensures r.Some? <==> Truthy(Lookup(d, "url"))
    ensures r.Some? ==> r.value == JObj([("type", JStr("stash")), ("value", Lookup(d, "url")),
                                         ("default", JBool(true))])
  {
    var url := Lookup(d, "url");
    if Truthy(url) then
      Some(JObj([("type", JStr("stash")), ("value", url), ("default", JBool(true))]))
    else None
  }

  /** `genres`: the `tags` list as it is, when it is a list. */
  function Genres(d: Dict): Option<Json> {
    var tags := GetOr(d, "tags", JList([]));
    if tags.JList? then Some(tags) else None
  }

  /** `actors`: the converted `performers` list, when it is a list. */
  function ActorsSlot(d: Dict): Option<Json> {
    var performers := GetOr(d, "performers", JList([]));
    if performers.JList? then Some(JList(Actors(performers.items))) else None
  }

  /** `int(float(duration) / 60)` for a truthy duration inside a `file` mapping; a missing
      `file` counts as an empty mapping, and a duration `float()` rejects sets nothing. */
  function Runtime(d: Dict): (r: Option<int>)
    ensures r.Some? ==> GetOr(d, "file", JObj([])).JObj?
    ensures r.Some? ==> Truthy(Lookup(GetOr(d, "file", JObj([])).fields, "duration"))
    ensures r.Some? <==> GetOr(d, "file", JObj([])).JObj?
                         && Truthy(Lookup(GetOr(d, "file", JObj([])).fields, "duration"))
                         && ToFloat(Lookup(GetOr(d, "file", JObj([])).fields, "duration")).Some?
  {
    var file := GetOr(d, "file", JObj([]));
    if !file.JObj? then None
    else
      var duration := Lookup(file.fields, "duration");
      if !Truthy(duration) then None
      else
        match ToFloat(duration)
        case Some(x) => Some(Trunc(x / 60.0))
        case None => None
  }

  function RuntimeSlot(d: Dict): Option<Json> {
    match Runtime(d)
    case Some(m) => Some(JInt(m))
    case None => None
  }

  // ---------------------------------------------------------------------------
  // Actors
  // ---------------------------------------------------------------------------

  /** One step of `_convert_performers_to_actors`: a name string or a performer mapping at
      position `i` becomes an actor dict whose order is `i`; anything else is skipped. */
  function ActorEntry(p: Json, i: nat): Option<Json> {
    match p
    case JStr(_) => Some(JObj([("order", JInt(i)), ("name", p), ("role", JStr(""))]))
    case JObj(fs) =>
      Some(JObj([("order", JInt(i)), ("name", GetOr(fs, "name", JStr(""))),
                 ("role", GetOr(fs, "role", JStr("")))]))
    case _ => None
  }

  /** `_convert_performers_to_actors`. */
  function Actors(ps: seq<Json>): (r: seq<Json>)
    ensures |r| == |Kept(ps, ActorEntry)| <= |ps|
  {
    FilterMap(ps, ActorEntry)
  }

  /** The `order` an actor dict carries. */
  function ActorOrder(a: Json): Option<Json> {
    if a.JObj? then Get(a.fields, "order") else None
  }

  /** The actor list keeps exactly the string and mapping entries, in input order: the k-th
      actor is built from the entry at the k-th kept position. */
  lemma ActorsKept(ps: seq<Json>)
    ensures |Actors(ps)| == |Kept(ps, ActorEntry)|
    ensures StrictlyIncreasing(Kept(ps, ActorEntry))
    ensures forall k :: 0 <= k < |Actors(ps)| ==>
              ActorEntry(ps[Kept(ps, ActorEntry)[k]], Kept(ps, ActorEntry)[k]) == Some(Actors(ps)[k])
    ensures forall i :: 0 <= i < |ps| ==>
              ((ps[i].JStr? || ps[i].JObj?) <==> i in Kept(ps, ActorEntry))
  {
    FilterMapSpec(ps, ActorEntry);
  }

  /** Each actor's order is its entry's original index, so orders strictly increase and a
      skipped entry leaves a gap instead of renumbering the rest. */
  lemma ActorOrders(ps: seq<Json>)
    ensures forall k :: 0 <= k < |Actors(ps)| ==>
              ActorOrder(Actors(ps)[k]) == Some(JInt(Kept(ps, ActorEntry)[k]))
    ensures forall k, l :: 0 <= k < l < |Actors(ps)| ==>
              ActorOrder(Actors(ps)[k]).value.i < ActorOrder(Actors(ps)[l]).value.i
  {
    ActorsKept(ps);
    var ks := Kept(ps, ActorEntry);
    forall k | 0 <= k < |Actors(ps)|
      ensures ActorOrder(Actors(ps)[k]) == Some(JInt(ks[k]))
    {
      assert ActorEntry(ps[ks[k]], ks[k]) == Some(Actors(ps)[k]);
    }
  }

  /** The name and role of the actor built from entry `i`: a string is the name with an
      empty role; a mapping gives its own name and role, each defaulting to "". */
  lemma ActorContent(ps: seq<Json>, k: nat)
    requires k < |Actors(ps)|
    ensures var i := Kept(ps, ActorEntry)[k];
            var a := Actors(ps)[k];
            a.JObj?
            && (ps[i].JStr? ==> a == JObj([("order", JInt(i)), ("name", ps[i]), ("role", JStr(""))]))
            && (ps[i].JObj? ==>
                  Get(a.fields, "name") == Some(GetOr(ps[i].fields, "name", JStr("")))
                  && Get(a.fields, "role") == Some(GetOr(ps[i].fields, "role", JStr(""))))
  {
    ActorsKept(ps);
    var i := Kept(ps, ActorEntry)[k];
    var a := Actors(ps)[k];
    assert ActorEntry(ps[i], i) == Some(a);
    if ps[i].JObj? {
      var fs := a.fields;
      assert fs[0].0 == "order" && fs[1].0 == "name" && fs[2].0 == "role";
      assert fs[1..][1..] == [fs[2]];
    }
  }

  /** Duplicates are not merged: two equal name strings give two actors. */
  lemma DuplicateNamesKept(ps: seq<Json>, i: nat, j: nat, name: string)
    requires i < j < |ps| && ps[i] == JStr(name) && ps[j] == JStr(name)
    ensures exists k, l :: 0 <= k < l < |Actors(ps)|
              && Actors(ps)[k] == JObj([("order", JInt(i)), ("name", JStr(name)), ("role", JStr(""))])
              && Actors(ps)[l] == JObj([("order", JInt(j)), ("name", JStr(name)), ("role", JStr(""))])
  {
    ActorsKept(ps);
    var ks := Kept(ps, ActorEntry);
    var k :| 0 <= k < |ks| && ks[k] == i;
    var l :| 0 <= l < |ks| && ks[l] == j;
    assert k != l;
    assert ActorEntry(ps[i], i) == Some(Actors(ps)[k]);
    assert ActorEntry(ps[j], j) == Some(Actors(ps)[l]);
  }

  // ---------------------------------------------------------------------------
  // Biography
  // ---------------------------------------------------------------------------

  /** The biography fields and their labels, in the order the lines are written. */
  const BioFields: seq<(string, string)> := [
    ("gender", "Gender"), ("ethnicity", "Ethnicity"), ("country", "Country"),
    ("height", "Height"), ("measurements", "Measurements"), ("eye_color", "Eye Color"),
    ("career_length", "Career Length"), ("tattoos", "Tattoos"), ("piercings", "Piercings")
  ]

  /** `f"{label}: {value}"` for a truthy field, nothing otherwise. */
  function BioLine(d: Dict, field: (string, string)): Option<string> {
    var v := Lookup(d, field.0);
    if Truthy(v) then Some(field.1 + ": " + PyStr(v)) else None
  }

  function BioLineOf(d: Dict): ((string, string), nat) -> Option<string> {
    (field: (string, string), i: nat) => BioLine(d, field)
  }

  /** The labelled lines, one per truthy biography field, in `BioFields` order. */
  function BioLines(d: Dict): (lines: seq<string>) {
    FilterMap(BioFields, BioLineOf(d))
  }

  /** Whether `aliases` contributes a line: a non-empty list. */
  predicate HasAliases(d: Dict) {
    var aliases := GetOr(d, "aliases", JList([]));
    Truthy(aliases) && aliases.JList?
  }

  predicate AllStrings(xs: seq<Json>) {
    forall i :: 0 <= i < |xs| ==> xs[i].JStr?
  }

  function Texts(xs: seq<Json>): (r: seq<string>)
    requires AllStrings(xs)
    ensures |r| == |xs| && forall i :: 0 <= i < |xs| ==> r[i] == xs[i].s
  {
    seq(|xs|, i requires 0 <= i < |xs| => xs[i].s)
  }

  /** `_build_performer_biography`: the labelled lines, then `Aliases: a, b` for a
      non-empty alias list, joined by newlines; `', '.join` fails on a non-string alias. */
  function Biography(d: Dict): (r: Result<string>)
    ensures r.Err? <==> HasAliases(d) && !AllStrings(GetOr(d, "aliases", JList([])).items)
    ensures r.Err? ==> r.error.TypeError?
  {
    var aliases := GetOr(d, "aliases", JList([]));
    if HasAliases(d) then
      if AllStrings(aliases.items) then
        Ok(Join(BioLines(d) + ["Aliases: " + Join(Texts(aliases.items), ", ")], "\n"))
      else Err(TypeError("sequence item: expected str instance"))
    else Ok(Join(BioLines(d), "\n"))
  }

  /** The k-th line of the biography belongs to the k-th truthy field in label order. */
  lemma BioLinesSpec(d: Dict)
    ensures |BioLines(d)| == |Kept(BioFields, BioLineOf(d))|
    ensures StrictlyIncreasing(Kept(BioFields, BioLineOf(d)))
    ensures forall k :: 0 <= k < |BioLines(d)| ==>
              var f := BioFields[Kept(BioFields, BioLineOf(d))[k]];
              Truthy(Lookup(d, f.0)) && BioLines(d)[k] == f.1 + ": " + PyStr(Lookup(d, f.0))
    ensures forall i :: 0 <= i < |BioFields| ==>
              (Truthy(Lookup(d, BioFields[i].0)) <==> i in Kept(BioFields, BioLineOf(d)))
  {
    FilterMapSpec(BioFields, BioLineOf(d));
    var ks := Kept(BioFields, BioLineOf(d));
    forall k | 0 <= k < |BioLines(d)|
      ensures BioLine(d, BioFields[ks[k]]) == Some(BioLines(d)[k])
    {
      assert BioLineOf(d)(BioFields[ks[k]], ks[k]) == Some(BioLines(d)[k]);
    }
  }

  lemma {:induction false} JoinEmpty(parts: seq<string>, sep: string)
    requires forall i :: 0 <= i < |parts| ==> parts[i] != ""
    ensures Join(parts, sep) == "" <==> parts == []
    decreases |parts|
  {
    if |parts| >= 2 {
      assert |Join(parts, sep)| >= |parts[0]|;
    }
  }

  /** The biography is empty exactly when no field is truthy and there are no aliases. */
  lemma EmptyBiography(d: Dict)
    requires Biography(d).Ok?
    ensures Biography(d).value == ""
            <==> (forall i :: 0 <= i < |BioFields| ==> !Truthy(Lookup(d, BioFields[i].0)))
                 && !HasAliases(d)
  {
    BioLinesSpec(d);
    var lines := BioLines(d);
    forall k | 0 <= k < |lines|
      ensures lines[k] != ""
    {
    }
    var all := if HasAliases(d) then lines + ["Aliases: " + Join(Texts(GetOr(d, "aliases", JList([])).items), ", ")] else lines;
    assert forall k :: 0 <= k < |all| ==> all[k] != "";
    JoinEmpty(all, "\n");
    if lines != [] {
      assert Kept(BioFields, BioLineOf(d))[0] in Kept(BioFields, BioLineOf(d));
    }
  }

  /** When no value text holds a newline, splitting the biography at newlines gives its
      lines back: one per truthy field in label order, then the alias line. */
  lemma BiographySplits(d: Dict)
    requires Biography(d).Ok?
    requires forall k :: 0 <= k < |BioLines(d)| ==> '\n' !in BioLines(d)[k]
    requires HasAliases(d) ==> '\n' !in Join(Texts(GetOr(d, "aliases", JList([])).items), ", ")
    ensures HasAliases(d) ==>
              Split(Biography(d).value, '\n')
              == BioLines(d) + ["Aliases: " + Join(Texts(GetOr(d, "aliases", JList([])).items), ", ")]
    ensures !HasAliases(d) && BioLines(d) != [] ==> Split(Biography(d).value, '\n') == BioLines(d)
  {
    var lines := BioLines(d);
    if HasAliases(d) {
      var line := "Aliases: " + Join(Texts(GetOr(d, "aliases", JList([])).items), ", ");
      var all := lines + [line];
      assert '\n' !in line by {
        assert forall i :: 0 <= i < 9 ==> line[i] != '\n';
        assert forall i :: 9 <= i < |line| ==> line[i] == line[9..][i - 9];
      }
      forall p | p in all
        ensures '\n' !in p
      {
      }
      SplitJoin(all, '\n');
    } else if lines != [] {
      forall p | p in lines
        ensures '\n' !in p
      {
      }
      SplitJoin(lines, '\n');
    }
  }

  // ---------------------------------------------------------------------------
  // Whole records
  // ---------------------------------------------------------------------------

  /** The values `_convert_scene` assigns to `SceneFields`, in order, given the ones it
      computes. */
  function SceneAssignments(title: Json, plot: Json, rating: Json, dates: (Option<Json>, Option<Json>),
                            studio: Json, uid: Option<Json>, genres: Option<Json>,
                            actors: Option<Json>, runtime: Option<Json>): (vals: seq<Option<Json>>)
    ensures |vals| == |SceneFields|
    ensures vals[0] == vals[1] == Some(title) && vals[2] == Some(plot) && vals[3] == Some(rating)
    ensures vals[4] == dates.0 && vals[5] == dates.1 && vals[6] == Some(studio) && vals[7] == uid
    ensures vals[8] == genres && vals[9] == actors && vals[10] == runtime
  {
    [Some(title), Some(title), Some(plot), Some(rating), dates.0, dates.1, Some(studio), uid,
     genres, actors, runtime]
  }

  /** The values `_convert_scene` assigns to `SceneFields`, in order. */
  function SceneValues(d: Dict, dates: (Option<Json>, Option<Json>)): (vals: seq<Option<Json>>)
    ensures |vals| == |SceneFields|
  {
    SceneAssignments(GetOr(d, "title", JStr("")), GetOr(d, "details", JStr("")), UserRating(d), dates,
                     GetOr(d, "studio", JStr("")), UniqueId(d), Genres(d), ActorsSlot(d), RuntimeSlot(d))
  }

  /** `_convert_scene`. */
  function ConvertScene(d: Dict): (r: Result<Dict>)
    ensures r.Err? <==> DateSlots(d).Err?
    ensures r.Err? ==> r.error.AttributeError?
    ensures r.Ok? ==> r.value == Present(SceneFields, SceneValues(d, DateSlots(d).value))
  {
    var dates :- DateSlots(d);
    Ok(Present(SceneFields, SceneValues(d, dates)))
  }

  /** The values `_convert_gallery` assigns to `GalleryFields`, in order, given the ones
      it computes. */
  function GalleryAssignments(title: Json, plot: Json, dates: (Option<Json>, Option<Json>),
                              studio: Json, uid: Option<Json>, genres: Option<Json>,
                              actors: Option<Json>): (vals: seq<Option<Json>>)
    ensures |vals| == |GalleryFields|
    ensures vals[0] == vals[1] == Some(title) && vals[2] == Some(plot)
    ensures vals[3] == dates.0 && vals[4] == dates.1 && vals[5] == Some(studio) && vals[6] == uid
    ensures vals[7] == genres && vals[8] == actors && vals[9] == Some(JStr("gallery"))
  {
    [Some(title), Some(title), Some(plot), dates.0, dates.1, Some(studio), uid, genres, actors,
     Some(JStr("gallery"))]
  }

  /** The values `_convert_gallery` assigns to `GalleryFields`, in order. */
  function GalleryValues(d: Dict, dates: (Option<Json>, Option<Json>)): (vals: seq<Option<Json>>)
    ensures |vals| == |GalleryFields|
  {
    GalleryAssignments(GetOr(d, "title", JStr("")), GetOr(d, "details", JStr("")), dates,
                       GetOr(d, "studio", JStr("")), UniqueId(d), Genres(d), ActorsSlot(d))
  }

  /** `_convert_gallery`. */
  function ConvertGallery(d: Dict): (r: Result<Dict>)
    ensures r.Err? <==> DateSlots(d).Err?
    ensures r.Err? ==> r.error.AttributeError?
    ensures r.Ok? ==> r.value == Present(GalleryFields, GalleryValues(d, DateSlots(d).value))
  {
    var dates :- DateSlots(d);
    Ok(Present(GalleryFields, GalleryValues(d, dates)))
  }

  /** The keys of a performer's `details` mapping, in the order they are written. */
  const DetailKeys := ["gender", "ethnicity", "country", "eye_color", "height",
                       "measurements", "tattoos", "piercings", "aliases"]

  /** The `get` default of a `details` key: `aliases` defaults to a list. */
  function DetailDefault(k: string): Json {
    if k == "aliases" then JList([]) else JStr("")
  }

  /** The `details` mapping of a performer: every key of `DetailKeys`, in that order,
      holding the input's value or the key's default. */
  function PerformerDetails(d: Dict): (r: Json)
    ensures r.JObj? && |r.fields| == |DetailKeys|
    ensures forall i :: 0 <= i < |DetailKeys| ==>
              r.fields[i] == (DetailKeys[i], GetOr(d, DetailKeys[i], DetailDefault(DetailKeys[i])))
  {
    JObj(seq(|DetailKeys|, i requires 0 <= i < |DetailKeys| =>
                             (DetailKeys[i], GetOr(d, DetailKeys[i], DetailDefault(DetailKeys[i])))))
  }

  /** The keys of a performer's `social` mapping, in the order they are written. */
  const SocialKeys := ["url", "twitter", "instagram"]

  /** The `social` mapping of a performer: every key of `SocialKeys`, in that order,
      defaulting to "". */
  function PerformerSocial(d: Dict): (r: Json)
    ensures r.JObj? && |r.fields| == |SocialKeys|
    ensures forall i :: 0 <= i < |SocialKeys| ==> r.fields[i] == (SocialKeys[i], GetOr(d, SocialKeys[i], JStr("")))
  {
    JObj(seq(|SocialKeys|, i requires 0 <= i < |SocialKeys| => (SocialKeys[i], GetOr(d, SocialKeys[i], JStr("")))))
  }

  /** The normalised birth date, set only for a truthy `birthdate`. */
  function BirthdateSlot(d: Dict): (r: Result<Option<Json>>)
    ensures r.Err? <==> Truthy(Lookup(d, "birthdate")) && !Lookup(d, "birthdate").JStr?
    ensures r.Err? ==> r.error.AttributeError?
    ensures r.Ok? ==> r.value == if Truthy(Lookup(d, "birthdate"))
                                 then Some(JStr(NormalizeDate(Lookup(d, "birthdate").s)))
                                 else None
  {
    var birthdate := Lookup(d, "birthdate");
    if Truthy(birthdate) then
      var b :- ConvertDate(birthdate);
      Ok(Some(JStr(b)))
    else Ok(None)
  }

  /** The values `_convert_performer` assigns to `PerformerFields`, in order. */
  function PerformerValues(d: Dict, bio: string, birth: Option<Json>): (vals: seq<Option<Json>>)
    ensures |vals| == |PerformerFields|
  {
    [Some(GetOr(d, "name", JStr(""))),
     Some(JStr(bio)),
     birth,
     Some(PerformerDetails(d)),
     Some(PerformerSocial(d))]
  }

  /** `_convert_performer`: the biography is built before the birth date is converted, so
      its error is the one reported when both fail. */
  function ConvertPerformer(d: Dict): (r: Result<Dict>)
    ensures Biography(d).Err? ==> r == Err(Biography(d).error)
    ensures Biography(d).Ok? ==> (r.Err? <==> BirthdateSlot(d).Err?)
    ensures r.Err? ==> r.error.TypeError? || r.error.AttributeError?
  {
    var bio :- Biography(d);
    var birth :- BirthdateSlot(d);
    Ok(Present(PerformerFields, PerformerValues(d, bio, birth)))
  }

  /** `convert`: dispatch on the kind name; any other name is a ValueError. */
  function Convert(d: Dict, kind: string): (r: Result<Dict>)
    ensures kind == "scene" ==> r == ConvertScene(d)
    ensures kind == "performer" ==> r == ConvertPerformer(d)
    ensures kind == "gallery" ==> r == ConvertGallery(d)
    ensures kind !in {"scene", "performer", "gallery"} ==>
              r == Err(ValueError("Unsupported data type: " + kind))
  {
    if kind == "scene" then ConvertScene(d)
    else if kind == "performer" then ConvertPerformer(d)
    else if kind == "gallery" then ConvertGallery(d)
    else Err(ValueError("Unsupported data type: " + kind))
  }

  // ---------------------------------------------------------------------------
  // What the converted records hold
  // ---------------------------------------------------------------------------

  lemma SceneFieldsDistinct()
    ensures Distinct(SceneFields)
  {
  }

  /** The scene keys by position. */
  lemma SceneFieldNames()
    ensures SceneFields[0] == "title" && SceneFields[1] == "originaltitle" && SceneFields[2] == "plot"
    ensures SceneFields[3] == "userrating" && SceneFields[4] == "premiered" && SceneFields[5] == "year"
    ensures SceneFields[6] == "studio" && SceneFields[7] == "uniqueid" && SceneFields[8] == "genres"
    ensures SceneFields[9] == "actors" && SceneFields[10] == "runtime"
  {
  }

  /** The gallery keys by position. */
  lemma GalleryFieldNames()
    ensures GalleryFields[0] == "title" && GalleryFields[1] == "originaltitle" && GalleryFields[2] == "plot"
    ensures GalleryFields[3] == "premiered" && GalleryFields[4] == "year" && GalleryFields[5] == "studio"
    ensures GalleryFields[6] == "uniqueid" && GalleryFields[7] == "genres" && GalleryFields[8] == "actors"
    ensures GalleryFields[9] == "media_type"
  {
  }

  lemma GalleryFieldsDistinct()
    ensures Distinct(GalleryFields)
  {
  }

  lemma SceneKeysExclude()
    ensures "media_type" !in SceneFields
  {
  }

  lemma GalleryKeysExclude()
    ensures "userrating" !in GalleryFields && "runtime" !in GalleryFields
  {
  }

  lemma PerformerFieldsDistinct()
    ensures Distinct(PerformerFields)
  {
  }

  /** Any dict built from the scene key list: its keys follow source order, and reading a
      key back gives the value assigned to it; there is no media type. */
  lemma SceneShape(vals: seq<Option<Json>>)
    requires |vals| == |SceneFields|
    ensures InKeyOrder(Present(SceneFields, vals), SceneFields)
    ensures Get(Present(SceneFields, vals), "userrating") == vals[3]
    ensures Get(Present(SceneFields, vals), "premiered") == vals[4]
    ensures Get(Present(SceneFields, vals), "year") == vals[5]
    ensures Get(Present(SceneFields, vals), "runtime") == vals[10]
    ensures !Has(Present(SceneFields, vals), "media_type")
  {
    SceneKeysExclude();
    NoSlotNoKey(SceneFields, vals, "media_type");
    SceneFieldsDistinct();
    PresentInOrder(SceneFields, vals);
    SlotGet(SceneFields, vals, 3);
    SlotGet(SceneFields, vals, 4);
    SlotGet(SceneFields, vals, 5);
    SlotGet(SceneFields, vals, 10);
  }

  /** The converted scene: keys in source order, the doubled rating always present, the
      runtime only when one can be computed, and no media type. */
  lemma SceneRecord(d: Dict)
    requires ConvertScene(d).Ok?
    ensures InKeyOrder(ConvertScene(d).value, SceneFields)
    ensures Get(ConvertScene(d).value, "userrating") == Some(UserRating(d))
    ensures Get(ConvertScene(d).value, "runtime") == RuntimeSlot(d)
    ensures !Has(ConvertScene(d).value, "media_type")
  {
    var vals := SceneValues(d, DateSlots(d).value);
    assert vals[3] == Some(UserRating(d)) && vals[10] == RuntimeSlot(d);
    assert ConvertScene(d).value == Present(SceneFields, vals);
    SceneShape(vals);
  }

  /** The converted scene's premiere date and year are exactly what `DateSlots` computes. */
  lemma SceneDates(d: Dict)
    requires ConvertScene(d).Ok?
    ensures Get(ConvertScene(d).value, "premiered") == DateSlots(d).value.0
    ensures Get(ConvertScene(d).value, "year") == DateSlots(d).value.1
  {
    var dates := DateSlots(d).value;
    var vals := SceneValues(d, dates);
    assert ConvertScene(d).value == Present(SceneFields, vals);
    assert vals[4] == dates.0 && vals[5] == dates.1;
    SceneShape(vals);
  }

  /** The converted scene's `genres` and `actors`: the tag list when it is a list, and the
      converted performer list when that is a list. */
  lemma SceneLists(d: Dict)
    requires ConvertScene(d).Ok?
    ensures Get(ConvertScene(d).value, "genres") == Genres(d)
    ensures Get(ConvertScene(d).value, "actors") == ActorsSlot(d)
  {
    var vals := SceneValues(d, DateSlots(d).value);
    assert ConvertScene(d).value == Present(SceneFields, vals);
    assert vals[8] == Genres(d) && vals[9] == ActorsSlot(d);
    SceneFieldsDistinct();
    SceneFieldNames();
    SlotGet(SceneFields, vals, 8);
    SlotGet(SceneFields, vals, 9);
  }

  /** Any dict built from the gallery key list: its keys follow source order, reading a
      key back gives the value assigned to it, and there is no rating and no runtime. */
  lemma GalleryShape(vals: seq<Option<Json>>)
    requires |vals| == |GalleryFields|
    ensures InKeyOrder(Present(GalleryFields, vals), GalleryFields)
    ensures Get(Present(GalleryFields, vals), "premiered") == vals[3]
    ensures Get(Present(GalleryFields, vals), "year") == vals[4]
    ensures Get(Present(GalleryFields, vals), "media_type") == vals[9]
    ensures !Has(Present(GalleryFields, vals), "userrating")
    ensures !Has(Present(GalleryFields, vals), "runtime")
  {
    GalleryKeysExclude();
    NoSlotNoKey(GalleryFields, vals, "userrating");
    NoSlotNoKey(GalleryFields, vals, "runtime");
    GalleryFieldsDistinct();
    PresentInOrder(GalleryFields, vals);
    SlotGet(GalleryFields, vals, 3);
    SlotGet(GalleryFields, vals, 4);
    SlotGet(GalleryFields, vals, 9);
  }

  /** The converted gallery never carries a rating or a runtime, always says it is a
      gallery, and takes its premiere date and year from `DateSlots` like a scene. */
  lemma GalleryRecord(d: Dict)
    requires ConvertGallery(d).Ok?
    ensures InKeyOrder(ConvertGallery(d).value, GalleryFields)
    ensures !Has(ConvertGallery(d).value, "userrating")
    ensures !Has(ConvertGallery(d).value, "runtime")
    ensures Get(ConvertGallery(d).value, "media_type") == Some(JStr("gallery"))
    ensures Get(ConvertGallery(d).value, "premiered") == DateSlots(d).value.0
    ensures Get(ConvertGallery(d).value, "year") == DateSlots(d).value.1
  {
    var dates := DateSlots(d).value;
    var vals := GalleryValues(d, dates);
    assert ConvertGallery(d).value == Present(GalleryFields, vals);
    assert vals[3] == dates.0 && vals[4] == dates.1;
    GalleryShape(vals);
  }

  /** The converted gallery's `genres` and `actors`, as for a scene. */
  lemma GalleryLists(d: Dict)
    requires ConvertGallery(d).Ok?
    ensures Get(ConvertGallery(d).value, "genres") == Genres(d)
    ensures Get(ConvertGallery(d).value, "actors") == ActorsSlot(d)
  {
    var vals := GalleryValues(d, DateSlots(d).value);
    assert ConvertGallery(d).value == Present(GalleryFields, vals);
    assert vals[7] == Genres(d) && vals[8] == ActorsSlot(d);
    GalleryFieldsDistinct();
    GalleryFieldNames();
    SlotGet(GalleryFields, vals, 7);
    SlotGet(GalleryFields, vals, 8);
  }

  /** The converted performer: name, biography, details and social always, the birth date
      only for a truthy one, in that source order. */
  lemma PerformerRecord(d: Dict)
    requires ConvertPerformer(d).Ok?
    ensures InKeyOrder(ConvertPerformer(d).value, PerformerFields)
    ensures Get(ConvertPerformer(d).value, "biography") == Some(JStr(Biography(d).value))
    ensures Has(ConvertPerformer(d).value, "birthdate") <==> Truthy(Lookup(d, "birthdate"))
    ensures Get(ConvertPerformer(d).value, "details") == Some(PerformerDetails(d))
    ensures Get(ConvertPerformer(d).value, "social") == Some(PerformerSocial(d))
  {
    var vals := PerformerValues(d, Biography(d).value, BirthdateSlot(d).value);
    PerformerFieldsDistinct();
    PresentInOrder(PerformerFields, vals);
    SlotGet(PerformerFields, vals, 1);
    SlotGet(PerformerFields, vals, 2);
    SlotGet(PerformerFields, vals, 3);
    SlotGet(PerformerFields, vals, 4);
  }

  /** The scene fields copied from the input: `title` (twice) and `plot` from `details`,
      each with "" as its default. */
  lemma SceneCopies(d: Dict)
    requires ConvertScene(d).Ok?
    ensures Get(ConvertScene(d).value, "title") == Some(GetOr(d, "title", JStr("")))
    ensures Get(ConvertScene(d).value, "originaltitle") == Get(ConvertScene(d).value, "title")
    ensures Get(ConvertScene(d).value, "plot") == Some(GetOr(d, "details", JStr("")))
  {
    var vals := SceneValues(d, DateSlots(d).value);
    assert ConvertScene(d).value == Present(SceneFields, vals);
    SceneFieldsDistinct();
    SceneFieldNames();
    SlotGet(SceneFields, vals, 0);
    SlotGet(SceneFields, vals, 1);
    SlotGet(SceneFields, vals, 2);
  }

  /** The scene's `studio` (default "") and its `uniqueid`, the record built from a truthy
      url. */
  lemma SceneStudioAndId(d: Dict)
    requires ConvertScene(d).Ok?
    ensures Get(ConvertScene(d).value, "studio") == Some(GetOr(d, "studio", JStr("")))
    ensures Get(ConvertScene(d).value, "uniqueid") == UniqueId(d)
  {
    var vals := SceneValues(d, DateSlots(d).value);
    assert ConvertScene(d).value == Present(SceneFields, vals);
    SceneFieldsDistinct();
    SceneFieldNames();
    SlotGet(SceneFields, vals, 6);
    SlotGet(SceneFields, vals, 7);
  }

  /** The gallery fields copied from the input, as for a scene. */
  lemma GalleryCopies(d: Dict)
    requires ConvertGallery(d).Ok?
    ensures Get(ConvertGallery(d).value, "title") == Some(GetOr(d, "title", JStr("")))
    ensures Get(ConvertGallery(d).value, "originaltitle") == Get(ConvertGallery(d).value, "title")
    ensures Get(ConvertGallery(d).value, "plot") == Some(GetOr(d, "details", JStr("")))
    ensures Get(ConvertGallery(d).value, "studio") == Some(GetOr(d, "studio", JStr("")))
    ensures Get(ConvertGallery(d).value, "uniqueid") == UniqueId(d)
  {
    var vals := GalleryValues(d, DateSlots(d).value);
    assert ConvertGallery(d).value == Present(GalleryFields, vals);
    GalleryFieldsDistinct();
    GalleryFieldNames();
    SlotGet(GalleryFields, vals, 0);
    SlotGet(GalleryFields, vals, 1);
    SlotGet(GalleryFields, vals, 2);
    SlotGet(GalleryFields, vals, 5);
    SlotGet(GalleryFields, vals, 6);
  }

  /** The converted performer's `name` (default "") and `birthdate`, which is the
      normalised date exactly when the input's is truthy. */
  lemma PerformerNameAndBirth(d: Dict)
    requires ConvertPerformer(d).Ok?
    ensures Get(ConvertPerformer(d).value, "name") == Some(GetOr(d, "name", JStr("")))
    ensures Get(ConvertPerformer(d).value, "birthdate") == BirthdateSlot(d).value
    ensures Truthy(Lookup(d, "birthdate")) ==>
              Get(ConvertPerformer(d).value, "birthdate") == Some(JStr(NormalizeDate(Lookup(d, "birthdate").s)))
  {
    var vals := PerformerValues(d, Biography(d).value, BirthdateSlot(d).value);
    assert ConvertPerformer(d).value == Present(PerformerFields, vals);
    PerformerFieldsDistinct();
    SlotGet(PerformerFields, vals, 0);
    SlotGet(PerformerFields, vals, 2);
  }

  lemma DetailKeysDistinct()
    ensures Distinct(DetailKeys)
  {
  }

  /** Reading `details` back: every listed key holds the input's value or its default,
      and nothing else is there. */
  lemma PerformerDetailsGet(d: Dict, k: string)
    ensures k in DetailKeys ==> Get(PerformerDetails(d).fields, k) == Some(GetOr(d, k, DetailDefault(k)))
    ensures k !in DetailKeys ==> Get(PerformerDetails(d).fields, k) == None
  {
    var fs := PerformerDetails(d).fields;
    DetailKeysDistinct();
    GetListed(fs, DetailKeys, k);
    if k in DetailKeys {
      var p :| 0 <= p < |DetailKeys| && DetailKeys[p] == k;
      assert fs[p].1 == GetOr(d, k, DetailDefault(k));
    }
  }

  /** Reading `social` back: `url`, `twitter` and `instagram`, each defaulting to "". */
  lemma PerformerSocialGet(d: Dict, k: string)
    ensures k in SocialKeys ==> Get(PerformerSocial(d).fields, k) == Some(GetOr(d, k, JStr("")))
    ensures k !in SocialKeys ==> Get(PerformerSocial(d).fields, k) == None
  {
    var fs := PerformerSocial(d).fields;
    assert Distinct(SocialKeys);
    GetListed(fs, SocialKeys, k);
    if k in SocialKeys {
      var p :| 0 <= p < |SocialKeys| && SocialKeys[p] == k;
      assert fs[p].1 == GetOr(d, k, JStr(""));
    }
  }

  /** A whole-number rating doubles to the float of twice its value, and a string spelling
      that number gives the same rating. */
  lemma RatingOfWholeNumber(d: Dict, n: int)
    requires Lookup(d, "rating") == JInt(n) || Lookup(d, "rating") == JStr(IntText(n))
    ensures UserRating(d) == JFloat((2 * n) as real)
  {
    ParseFloatIntText(n);
  }

  /** A rating `float()` cannot read, or none at all, gives the int 0. */
  lemma RatingFallback(d: Dict)
    requires Lookup(d, "rating").JNull? || Lookup(d, "rating").JList? || Lookup(d, "rating").JObj?
             || (Lookup(d, "rating").JStr? && ParseFloat(Lookup(d, "rating").s).None?)
    ensures UserRating(d) == JInt(0)
  {
  }

  /** For whole seconds the runtime is the number of whole minutes, rounded toward zero,
      so a clip shorter than a minute gets runtime 0. */
  lemma RuntimeOfSeconds(d: Dict, secs: int)
    requires GetOr(d, "file", JObj([])).JObj?
    requires Lookup(GetOr(d, "file", JObj([])).fields, "duration") == JInt(secs)
    requires secs != 0
    ensures Runtime(d) == Some(if secs >= 0 then secs / 60 else -((-secs) / 60))
    ensures 0 < secs < 60 ==> Runtime(d) == Some(0)
  {
    TruncDiv60(secs);
  }

  /** No runtime without a `file` mapping, or with a falsy duration. */
  lemma NoRuntime(d: Dict)
    requires !GetOr(d, "file", JObj([])).JObj?
             || !Truthy(Lookup(GetOr(d, "file", JObj([])).fields, "duration"))
    ensures Runtime(d) == None
  {
  }
}

=== FILE: dates.dfy ===
/**
  Date handling of the converter: the `datetime.strptime` subset the date formats use,
  `_convert_date`'s best-effort normalisation to YYYY-MM-DD, and the strict year
  extraction the scene and gallery converters perform on the original string.
 */
module Dates {
  import opened Wrappers
  import opened PyText
  import opened Json

  datatype Date = Date(year: int, month: int, day: int)

  /** Which field each of the three separated parts holds. */
  datatype FieldOrder = YearMonthDay | DayMonthYear | MonthDayYear

  /** A strptime format made of `%Y`, `%m` and `%d` joined by one separator character. */
  datatype Layout = Layout(order: FieldOrder, sep: char)

  /** `%Y-%m-%d`. */
  const Iso := Layout(YearMonthDay, '-')

  /** The format list of `_convert_date`, in order. The source cuts every format at its
      first 'T', so the two time-bearing ISO formats become plain `%Y-%m-%d` again. */
  const DateFormats: seq<Layout> := [
    Iso,                           // %Y-%m-%d
    Iso,                           // %Y-%m-%dT%H:%M:%S cut at 'T'
    Iso,                           // %Y-%m-%dT%H:%M:%S%z cut at 'T'
    Layout(DayMonthYear, '/'),     // %d/%m/%Y
    Layout(MonthDayYear, '/'),     // %m/%d/%Y
    Layout(DayMonthYear, '-'),     // %d-%m-%Y
    Layout(MonthDayYear, '-')      // %m-%d-%Y
  ]

  predicate IsLeap(y: int) {
    y % 4 == 0 && (y % 100 != 0 || y % 400 == 0)
  }

  function DaysInMonth(y: int, m: int): (n: int)
    requires 1 <= m <= 12
    ensures 28 <= n <= 31
  {
    if m == 2 then (if IsLeap(y) then 29 else 28)
    else if m == 4 || m == 6 || m == 9 || m == 11 then 30
    else 31
  }

  /** What `datetime(year, month, day)` accepts. */
  predicate ValidDate(d: Date) {
    1 <= d.year <= 9999 && 1 <= d.month <= 12 && 1 <= d.day <= DaysInMonth(d.year, d.month)
  }

  /** `%Y` matches exactly four digits. */
  predicate YearField(s: string) {
    |s| == 4 && AllDigits(s)
  }

  /** `%m` and `%d` match one or two digits. */
  predicate ShortField(s: string) {
    1 <= |s| <= 2 && AllDigits(s)
  }

  /** The parts of a three-field date string in year, month, day order. */
  function Fields(parts: seq<string>, order: FieldOrder): (string, string, string)
    requires |parts| == 3
  {
    match order
    case YearMonthDay => (parts[0], parts[1], parts[2])
    case DayMonthYear => (parts[2], parts[1], parts[0])
    case MonthDayYear => (parts[2], parts[0], parts[1])
  }

  /** `datetime.strptime(s, layout)`: the whole string must be consumed, and the fields
      must name a real calendar date. */
  function Strptime(s: string, layout: Layout): (r: Option<Date>)
    ensures r.Some? ==> ValidDate(r.value)
  {
    var parts := Split(s, layout.sep);
    if |parts| != 3 then None
    else
      var (y, m, d) := Fields(parts, layout.order);
      if YearField(y) && ShortField(m) && ShortField(d) then
        var date := Date(DigitsValue(y), DigitsValue(m), DigitsValue(d));
        if ValidDate(date) then Some(date) else None
      else None
  }

  /** `dt.strftime('%Y-%m-%d')`. */
  function Render(d: Date): (r: string)
    requires ValidDate(d)
    ensures |r| == 10
  {
    NatTextLength(d.year, 4);
    NatTextLength(d.month, 2);
    NatTextLength(d.day, 2);
    ZeroPad(d.year, 4) + "-" + ZeroPad(d.month, 2) + "-" + ZeroPad(d.day, 2)
  }

  /** A string that is already the canonical rendering of the date it denotes. */
  predicate Canonical(s: string) {
    match Strptime(s, Iso)
    case Some(d) => Render(d) == s
    case None => false
  }

  /** `date_str.split('T')[0]`. */
  function BeforeT(s: string): (r: string)
    ensures r == s[..IndexOf(s, 'T')]
  {
    SplitHead(s, 'T');
    Split(s, 'T')[0]
  }

  /** The first layout of `layouts` that parses `text`, as the `for fmt in date_formats`
      loop finds it. */
  function FirstParse(text: string, layouts: seq<Layout>): (r: Option<Date>)
    ensures r.Some? ==> ValidDate(r.value)
    decreases |layouts|
  {
    if layouts == [] then None
    else
      match Strptime(text, layouts[0])
      case Some(d) => Some(d)
      case None => FirstParse(text, layouts[1..])
  }

  /** `_convert_date` on a string. */
  function NormalizeDate(s: string): (r: string)
    ensures s == "" <==> r == ""
    ensures r == s || Canonical(r)
    ensures s != "" && (forall k :: 0 <= k < |DateFormats| ==> Strptime(BeforeT(s), DateFormats[k]).None?)
            ==> r == s
    ensures forall k ::
              (0 <= k < |DateFormats| && s != ""
               && (forall j :: 0 <= j < k ==> Strptime(BeforeT(s), DateFormats[j]).None?)
               && Strptime(BeforeT(s), DateFormats[k]).Some?)
              ==> r == Render(Strptime(BeforeT(s), DateFormats[k]).value)
  {
    if s == "" then ""
    else
      var head := BeforeT(s);
      FirstParseSpec(head, DateFormats);
      match FirstParse(head, DateFormats)
      case Some(d) =>
        RenderCanonical(d);
        Render(d)
      case None => s
  }

  /** `_convert_date(x)` on any JSON value: falsy values give "", a string is normalised,
      and anything else fails on `date_str.split`. */
  function ConvertDate(j: Json): (r: Result<string>)
    ensures !Truthy(j) ==> r == Ok("")
    ensures Truthy(j) && j.JStr? ==> r == Ok(NormalizeDate(j.s)) && r.value != ""
    ensures Truthy(j) && !j.JStr? ==> r.Err? && r.error.AttributeError?
  {
    if !Truthy(j) then Ok("")
    else if j.JStr? then Ok(NormalizeDate(j.s))
    else Err(AttributeError("object has no attribute 'split'"))
  }

  /** `datetime.strptime(date_str, '%Y-%m-%d').year`, with ValueError and TypeError swallowed. */
  function StrictYear(j: Json): (r: Option<int>)
    ensures r.Some? ==> j.JStr? && Strptime(j.s, Iso).Some? && r.value == Strptime(j.s, Iso).value.year
    ensures j.JStr? && Strptime(j.s, Iso).Some? ==> r.Some?
    ensures r.Some? ==> 1 <= r.value <= 9999
  {
    if j.JStr? then
      match Strptime(j.s, Iso)
      case Some(d) => Some(d.year)
      case None => None
    else None
  }

  // ---------------------------------------------------------------------------
  // Proofs
  // ---------------------------------------------------------------------------

  lemma {:induction false} NatTextLength(n: nat, k: nat)
    requires 1 <= k && n < Pow10(k)
    ensures |NatText(n)| <= k
    decreases n
  {
    if n >= 10 {
      assert k >= 1 && Pow10(k) == 10 * Pow10(k - 1);
      assert n / 10 < Pow10(k - 1);
      NatTextLength(n / 10, k - 1);
      assert NatText(n) == NatText(n / 10) + [DigitChar(n % 10)];
    }
  }

  /** FirstParse returns the result of the first layout that succeeds, and None when none does. */
  lemma {:induction false} FirstParseSpec(text: string, layouts: seq<Layout>)
    ensures (forall k :: 0 <= k < |layouts| ==> Strptime(text, layouts[k]).None?)
            ==> FirstParse(text, layouts) == None
    ensures forall k ::
              (0 <= k < |layouts|
               && (forall j :: 0 <= j < k ==> Strptime(text, layouts[j]).None?)
               && Strptime(text, layouts[k]).Some?)
              ==> FirstParse(text, layouts) == Strptime(text, layouts[k])
    decreases |layouts|
  {
    if layouts != [] {
      FirstParseSpec(text, layouts[1..]);
      forall k | 0 <= k < |layouts|
        && (forall j :: 0 <= j < k ==> Strptime(text, layouts[j]).None?)
        && Strptime(text, layouts[k]).Some?
        ensures FirstParse(text, layouts) == Strptime(text, layouts[k])
      {
        if k > 0 {
          assert Strptime(text, layouts[0]).None?;
          assert layouts[k] == layouts[1..][k - 1];
          assert forall j :: 0 <= j < k - 1 ==> layouts[1..][j] == layouts[j + 1];
        }
      }
      if forall k :: 0 <= k < |layouts| ==> Strptime(text, layouts[k]).None? {
        assert Strptime(text, layouts[0]).None?;
        assert forall k :: 0 <= k < |layouts| - 1 ==> layouts[1..][k] == layouts[k + 1];
      }
    }
  }

  /** The canonical rendering of a valid date splits into its three zero-padded fields. */
  lemma RenderSplit(d: Date)
    requires ValidDate(d)
    ensures Split(Render(d), '-') == [ZeroPad(d.year, 4), ZeroPad(d.month, 2), ZeroPad(d.day, 2)]
  {
    var parts := [ZeroPad(d.year, 4), ZeroPad(d.month, 2), ZeroPad(d.day, 2)];
    forall p | p in parts
      ensures '-' !in p
    {
      assert AllDigits(p);
    }
    Join3(parts, "-");
    SplitJoin(parts, '-');
  }

  /** Round trip: parsing the canonical rendering of a valid date as `%Y-%m-%d` gives it back. */
  lemma RenderParse(d: Date)
    requires ValidDate(d)
    ensures Strptime(Render(d), Iso) == Some(d)
  {
    RenderSplit(d);
    NatTextLength(d.year, 4);
    NatTextLength(d.month, 2);
    NatTextLength(d.day, 2);
  }

  lemma RenderCanonical(d: Date)
    requires ValidDate(d)
    ensures Canonical(Render(d))
  {
    RenderParse(d);
  }

  /** A string that has no 'T' is its own date part. */
  lemma NoTHead(s: string)
    requires 'T' !in s
    ensures BeforeT(s) == s
  {
    assert IndexOf(s, 'T') == |s|;
  }

  /** A string that parses strictly as `%Y-%m-%d` holds no 'T'. */
  lemma IsoHasNoT(s: string)
    requires Strptime(s, Iso).Some?
    ensures 'T' !in s
  {
    var parts := Split(s, '-');
    JoinSplit(s, '-');
    Join3(parts, "-");
    assert AllDigits(parts[0]) && AllDigits(parts[1]) && AllDigits(parts[2]);
    forall i | 0 <= i < |s|
      ensures s[i] != 'T'
    {
      if i < |parts[0]| {
        assert s[i] == parts[0][i];
      } else if i == |parts[0]| {
        assert s[i] == '-';
      } else if i < |parts[0]| + 1 + |parts[1]| {
        assert s[i] == parts[1][i - |parts[0]| - 1];
      } else if i == |parts[0]| + 1 + |parts[1]| {
        assert s[i] == '-';
      } else {
        assert s[i] == parts[2][i - |parts[0]| - 2 - |parts[1]|];
      }
    }
  }

  /** Whatever parses strictly as `%Y-%m-%d` is normalised to the rendering of that date. */
  lemma StrictParseNormalizes(s: string)
    requires Strptime(s, Iso).Some?
    ensures NormalizeDate(s) == Render(Strptime(s, Iso).value)
  {
    IsoHasNoT(s);
    NoTHead(s);
    assert DateFormats[0] == Iso;
  }

  /** A canonical YYYY-MM-DD string is returned unchanged. */
  lemma CanonicalUnchanged(s: string)
    requires Canonical(s)
    ensures NormalizeDate(s) == s
  {
    StrictParseNormalizes(s);
  }

  /** Normalisation is idempotent. */
  lemma NormalizeIdempotent(s: string)
    ensures NormalizeDate(NormalizeDate(s)) == NormalizeDate(s)
  {
    var r := NormalizeDate(s);
    if r != s {
      CanonicalUnchanged(r);
    }
  }

  /** When the year is derived, the premiere date is the canonical rendering of that same
      date, so the two agree on the year. */
  lemma YearAgreesWithPremiered(s: string)
    requires StrictYear(JStr(s)).Some?
    ensures Strptime(NormalizeDate(s), Iso).Some?
    ensures Strptime(NormalizeDate(s), Iso).value.year == StrictYear(JStr(s)).value
  {
    var d := Strptime(s, Iso).value;
    StrictParseNormalizes(s);
    RenderParse(d);
  }

  // ---------------------------------------------------------------------------
  // The order of the format list
  // ---------------------------------------------------------------------------

  /** `a/b/c` for three digit runs. */
  function Slashed(a: string, b: string, c: string): string {
    a + "/" + b + "/" + c
  }

  lemma SlashedChars(a: string, b: string, c: string)
    requires AllDigits(a) && AllDigits(b) && AllDigits(c)
    ensures '-' !in Slashed(a, b, c) && 'T' !in Slashed(a, b, c)
  {
    var s := Slashed(a, b, c);
    assert forall i :: 0 <= i < |s| ==> IsDigit(s[i]) || s[i] == '/';
  }

  /** Parsing three slash-separated digit runs with a slash layout. */
  lemma SlashParse(a: string, b: string, c: string, order: FieldOrder)
    requires AllDigits(a) && AllDigits(b) && AllDigits(c)
    ensures Strptime(Slashed(a, b, c), Layout(order, '/'))
            == var (y, m, d) := Fields([a, b, c], order);
               if YearField(y) && ShortField(m) && ShortField(d)
                  && ValidDate(Date(DigitsValue(y), DigitsValue(m), DigitsValue(d)))
               then Some(Date(DigitsValue(y), DigitsValue(m), DigitsValue(d)))
               else None
  {
    assert '/' !in a && '/' !in b && '/' !in c by {
      assert forall i :: 0 <= i < |a| ==> a[i] != '/';
      assert forall i :: 0 <= i < |b| ==> b[i] != '/';
      assert forall i :: 0 <= i < |c| ==> c[i] != '/';
    }
    SplitThree(a, b, c, '/');
  }

  /** A slash date reaches the slash layouts: no ISO layout accepts it and there is no
      time part to cut. */
  lemma SlashSkipsIso(a: string, b: string, c: string)
    requires AllDigits(a) && AllDigits(b) && AllDigits(c)
    ensures BeforeT(Slashed(a, b, c)) == Slashed(a, b, c)
    ensures forall j :: 0 <= j < 3 ==> Strptime(Slashed(a, b, c), DateFormats[j]).None?
  {
    var s := Slashed(a, b, c);
    SlashedChars(a, b, c);
    NoTHead(s);
    IndexOfAbsent(s, '-');
    assert Split(s, '-') == [s];
    assert forall j :: 0 <= j < 3 ==> DateFormats[j] == Iso;
  }

  /** A slash date is read day first whenever that reading is a real date, even when the
      month-first reading would be one too: "01/02/2023" is the 1st of February. */
  lemma SlashDayFirst(dd: string, mm: string, yyyy: string)
    requires ShortField(dd) && ShortField(mm) && YearField(yyyy)
    requires ValidDate(Date(DigitsValue(yyyy), DigitsValue(mm), DigitsValue(dd)))
    ensures NormalizeDate(Slashed(dd, mm, yyyy))
            == Render(Date(DigitsValue(yyyy), DigitsValue(mm), DigitsValue(dd)))
  {
    var s := Slashed(dd, mm, yyyy);
    SlashSkipsIso(dd, mm, yyyy);
    SlashParse(dd, mm, yyyy, DayMonthYear);
    assert DateFormats[3] == Layout(DayMonthYear, '/');
    assert Strptime(BeforeT(s), DateFormats[3]).Some?;
  }

  /** Month first is the fallback: when the first field cannot be the day of the month the
      second field names, "12/25/2023" is read as the 25th of December. */
  lemma SlashMonthFirst(mm: string, dd: string, yyyy: string)
    requires ShortField(mm) && ShortField(dd) && YearField(yyyy)
    requires !ValidDate(Date(DigitsValue(yyyy), DigitsValue(dd), DigitsValue(mm)))
    requires ValidDate(Date(DigitsValue(yyyy), DigitsValue(mm), DigitsValue(dd)))
    ensures NormalizeDate(Slashed(mm, dd, yyyy))
            == Render(Date(DigitsValue(yyyy), DigitsValue(mm), DigitsValue(dd)))
  {
    var s := Slashed(mm, dd, yyyy);
    SlashSkipsIso(mm, dd, yyyy);
    SlashParse(mm, dd, yyyy, DayMonthYear);
    SlashParse(mm, dd, yyyy, MonthDayYear);
    assert DateFormats[3] == Layout(DayMonthYear, '/');
    assert DateFormats[4] == Layout(MonthDayYear, '/');
    assert forall j :: 0 <= j < 4 ==> Strptime(BeforeT(s), DateFormats[j]).None?;
    assert Strptime(BeforeT(s), DateFormats[4]).Some?;
  }

  /** A timestamp keeps only its date part as premiere date, and the strict parse that
      derives the year rejects it: "2023-12-25T10:30:00" gives premiered "2023-12-25"
      and no year. */
  lemma TimestampKeepsDate(date: string, time: string)
    requires Canonical(date)
    ensures NormalizeDate(date + "T" + time) == date
    ensures StrictYear(JStr(date + "T" + time)).None?
  {
    var s := date + "T" + time;
    IsoHasNoT(date);
    IndexOfAfter(date, 'T', time);
    assert s[..|date|] == date;
    assert BeforeT(s) == date;
    assert DateFormats[0] == Iso;
    assert 'T' in s by { assert s[|date|] == 'T'; }
    if Strptime(s, Iso).Some? {
      IsoHasNoT(s);
    }
  }
}

=== FILE: elements.dfy ===
/**
  ElementTree elements as the NFO generator builds them. ElementTree stores whatever
  object it is handed as an element's text or attribute value and only objects when the
  tree is serialised, so text and attribute values are Json values here and
  serialisability is a separate predicate.
 */
module Elements {
  import opened Json
  import opened Seqs
  import opened Records

  /** An element: tag, attributes in the order they were set, text (None for a container),
      children in the order they were appended. */
  datatype Elem = Elem(tag: string, attrs: seq<(string, Json)>, text: Json, children: seq<Elem>)

  /** `_add_text_element`: a leaf holding the given text, or "" when that text is falsy, so
      an added leaf never carries None. */
  function TextElem(tag: string, text: Json): (e: Elem)
    ensures e.tag == tag && e.attrs == [] && e.children == []
    ensures e.text == text || e.text == JStr("")
    ensures Truthy(e.text) <==> Truthy(text)
    ensures e.text != JNull
  {
    Elem(tag, [], if Truthy(text) then text else JStr(""), [])
  }

  /** `str(x)` handed over as element text. */
  function Str(v: Json): (t: Json)
    ensures t.JStr?
    ensures Truthy(v) ==> Truthy(t)
  {
    TruthyTextWhen(v);
    JStr(PyStr(v))
  }

  lemma TruthyTextWhen(v: Json)
    ensures Truthy(v) ==> PyStr(v) != ""
  {
    if Truthy(v) {
      TruthyText(v);
    }
  }

  /** `if value: _add_text_element(parent, tag, text)`. */
  function WhenTruthy(tag: string, value: Json, text: Json): (es: seq<Elem>)
    ensures |es| == (if Truthy(value) then 1 else 0)
    ensures forall i :: 0 <= i < |es| ==> es[i] == TextElem(tag, text)
  {
    if Truthy(value) then [TextElem(tag, text)] else []
  }

  /** One leaf per value, in order. */
  function TextBlock(tag: string, xs: seq<Json>): (es: seq<Elem>)
    ensures |es| == |xs|
    ensures forall i :: 0 <= i < |xs| ==> es[i] == TextElem(tag, xs[i])
  {
    seq(|xs|, i requires 0 <= i < |xs| => TextElem(tag, xs[i]))
  }

  /** A text value ElementTree can write: a string, or a falsy value it skips. */
  predicate TextOk(t: Json) {
    t.JStr? || !Truthy(t)
  }

  /** The strings `_escape_attrib` tests for with `in` before replacing them. */
  const AttribSpecials := ["&", "<", ">", "\"", "\r", "\n", "\t"]

  /** A list item or dict key equal to one of the strings `_escape_attrib` looks for. */
  predicate IsAttribSpecial(j: Json) {
    j.JStr? && j.s in AttribSpecials
  }

  /** An attribute value `_escape_attrib` lets through. A string is escaped. A list or a
      dict passes the `in` tests and comes back unchanged, to be written as its `str()`,
      unless one of its items (keys) is a special string, whose `.replace` then fails.
      Any other value fails the `in` test itself. */
  predicate AttrOk(v: Json) {
    match v
    case JStr(_) => true
    case JList(items) => forall i :: 0 <= i < |items| ==> !IsAttribSpecial(items[i])
    case JObj(fs) => forall i :: 0 <= i < |fs| ==> fs[i].0 !in AttribSpecials
    case _ => false
  }

  /** `ElementTree.tostring` succeeds: every text and every attribute value is writable;
      otherwise it raises TypeError ("cannot serialize"). */
  predicate Serializable(e: Elem)
    decreases e
  {
    TextOk(e.text)
    && (forall i :: 0 <= i < |e.attrs| ==> AttrOk(e.attrs[i].1))
    && (forall i :: 0 <= i < |e.children| ==> Serializable(e.children[i]))
  }

  /** The elements with tag `t`, in document order (`parent.findall(t)`). */
  function WithTag(es: seq<Elem>, t: string): (r: seq<Elem>)
    ensures |r| <= |es|
    ensures forall k :: 0 <= k < |r| ==> r[k].tag == t && r[k] in es
    ensures (forall i :: 0 <= i < |es| ==> es[i].tag == t) ==> r == es
    ensures (forall i :: 0 <= i < |es| ==> es[i].tag != t) ==> r == []
    decreases |es|
  {
    if es == [] then []
    else (if es[0].tag == t then [es[0]] else []) + WithTag(es[1..], t)
  }

  lemma {:induction false} WithTagAppend(a: seq<Elem>, b: seq<Elem>, t: string)
    ensures WithTag(a + b, t) == WithTag(a, t) + WithTag(b, t)
    decreases |a|
  {
    if a != [] {
      assert (a + b)[0] == a[0];
      assert (a + b)[1..] == a[1..] + b;
      WithTagAppend(a[1..], b, t);
    } else {
      assert a + b == b;
    }
  }

  /** Every element of the block has tag `t`. */
  predicate Tagged(b: seq<Elem>, t: string) {
    forall i :: 0 <= i < |b| ==> b[i].tag == t
  }

  /** Block `k` holds only elements tagged `order[k]`. */
  predicate BlocksTagged(bs: seq<seq<Elem>>, order: seq<string>) {
    |bs| <= |order| && forall k :: 0 <= k < |bs| ==> Tagged(bs[k], order[k])
  }

  /** Every tag is listed in `order`, and the tags never go back in that order. */
  predicate FollowsOrder(es: seq<Elem>, order: seq<string>) {
    (forall i :: 0 <= i < |es| ==> Rank(order, es[i].tag) < |order|)
    && (forall i, j :: 0 <= i < j < |es| ==> Rank(order, es[i].tag) <= Rank(order, es[j].tag))
  }

  lemma BlocksTaggedPrefix(bs: seq<seq<Elem>>, order: seq<string>, n: nat)
    requires BlocksTagged(bs, order) && n <= |bs|
    ensures BlocksTagged(bs[..n], order)
  {
    assert forall k :: 0 <= k < n ==> bs[..n][k] == bs[k];
  }

  /** Laying out blocks tagged in a list of distinct tags gives children in that order. */
  lemma {:induction false} ConcatFollowsOrder(bs: seq<seq<Elem>>, order: seq<string>)
    requires Distinct(order) && BlocksTagged(bs, order)
    ensures forall i :: 0 <= i < |Concat(bs)| ==> Rank(order, Concat(bs)[i].tag) < |bs|
    ensures FollowsOrder(Concat(bs), order)
    decreases |bs|
  {
    if bs != [] {
      var n := |bs| - 1;
      BlocksTaggedPrefix(bs, order, n);
      ConcatFollowsOrder(bs[..n], order);
      var c' := Concat(bs[..n]);
      var c := Concat(bs);
      assert c == c' + bs[n];
      RankOfDistinct(order, n);
      forall i | 0 <= i < |c|
        ensures i < |c'| ==> c[i] == c'[i]
        ensures i >= |c'| ==> Rank(order, c[i].tag) == n
      {
        if i >= |c'| {
          assert c[i] == bs[n][i - |c'|];
        }
      }
    }
  }

  /** A tag no block is tagged with never occurs. */
  lemma {:induction false} ConcatWithoutTag(bs: seq<seq<Elem>>, order: seq<string>, t: string)
    requires BlocksTagged(bs, order)
    requires forall k :: 0 <= k < |bs| ==> order[k] != t
    ensures WithTag(Concat(bs), t) == []
    decreases |bs|
  {
    if bs != [] {
      var n := |bs| - 1;
      BlocksTaggedPrefix(bs, order, n);
      ConcatWithoutTag(bs[..n], order, t);
      WithTagAppend(Concat(bs[..n]), bs[n], t);
    }
  }

  /** The elements tagged `order[p]` are exactly block `p`, in its order. */
  lemma {:induction false} ConcatWithTag(bs: seq<seq<Elem>>, order: seq<string>, p: nat)
    requires Distinct(order) && BlocksTagged(bs, order) && p < |bs|
    ensures WithTag(Concat(bs), order[p]) == bs[p]
    decreases |bs|
  {
    var n := |bs| - 1;
    BlocksTaggedPrefix(bs, order, n);
    assert Concat(bs) == Concat(bs[..n]) + bs[n];
    WithTagAppend(Concat(bs[..n]), bs[n], order[p]);
    assert Tagged(bs[n], order[n]);
    if p < n {
      ConcatWithTag(bs[..n], order, p);
      assert bs[..n][p] == bs[p];
      DistinctAt(order, n, p);
      assert forall i :: 0 <= i < |bs[n]| ==> bs[n][i].tag != order[p];
    } else {
      forall k | 0 <= k < n
        ensures order[k] != order[p]
      {
        DistinctAt(order, k, p);
      }
      ConcatWithoutTag(bs[..n], order, order[p]);
    }
  }

  /** A leaf is serialisable exactly when its text is writable. */
  lemma LeafSerializable(e: Elem)
    requires e.attrs == [] && e.children == []
    ensures Serializable(e) <==> TextOk(e.text)
  {
  }

  /** A conditional leaf serialises exactly when its value is writable: a falsy value adds
      nothing and is writable anyway. */
  lemma WhenTruthySerializable(tag: string, v: Json)
    ensures (forall j :: 0 <= j < |WhenTruthy(tag, v, v)| ==> Serializable(WhenTruthy(tag, v, v)[j]))
            <==> TextOk(v)
  {
    if Truthy(v) {
      var e := TextElem(tag, v);
      assert WhenTruthy(tag, v, v) == [e];
      assert e.text == v;
      LeafSerializable(e);
      var b := WhenTruthy(tag, v, v);
      assert |b| == 1 && b[0] == e;
      assert (forall j :: 0 <= j < |b| ==> Serializable(b[j])) <==> Serializable(b[0]);
    }
  }
}

=== FILE: json.dfy ===
/**
  Untyped JSON values as the Python code sees them after `json.load`: dicts keep their
  insertion order (a sequence of key/value pairs), and every `if x:` in the code is a
  Python truthiness test.
 */
module Json {
  import opened Wrappers
  import opened PyText

  datatype Json =
    | JNull
    | JBool(b: bool)
    | JInt(i: int)
    | JFloat(f: real)
    | JStr(s: string)
    | JList(items: seq<Json>)
    | JObj(fields: Dict)

  /** A Python dict: keys in insertion order; lookups take the first pair with the key. */
  type Dict = seq<(string, Json)>

  /** Python truthiness: None, False, 0, 0.0, "", [] and {} are false. */
  predicate Truthy(j: Json) {
    match j
    case JNull => false
    case JBool(b) => b
    case JInt(i) => i != 0
    case JFloat(f) => f != 0.0
    case JStr(s) => s != ""
    case JList(xs) => xs != []
    case JObj(fs) => fs != []
  }

  /** `d.get(k)` without a default: the value stored under `k`, if any. */
  function Get(d: Dict, k: string): (r: Option<Json>)
    ensures r.Some? ==> (k, r.value) in d
    ensures r.None? <==> forall i :: 0 <= i < |d| ==> d[i].0 != k
    decreases |d|
  {
    if d == [] then None
    else if d[0].0 == k then Some(d[0].1)
    else
      var r := Get(d[1..], k);
      assert forall i :: 1 <= i < |d| ==> d[i] == d[1..][i - 1];
      r
  }

  /** `k in d`. */
  predicate Has(d: Dict, k: string) {
    Get(d, k).Some?
  }

  /** `d.get(k, default)`: the default is used only when the key is absent. */
  function GetOr(d: Dict, k: string, default: Json): (r: Json)
    ensures Has(d, k) ==> r == Get(d, k).value
    ensures !Has(d, k) ==> r == default
  {
    match Get(d, k)
    case Some(v) => v
    case None => default
  }

  /** `d.get(k)`, as a value: None when the key is absent. */
  function Lookup(d: Dict, k: string): Json {
    GetOr(d, k, JNull)
  }

  /** A lookup in a dict built by concatenation finds the earlier part first. */
  lemma {:induction false} GetAppend(a: Dict, b: Dict, k: string)
    ensures Get(a + b, k) == if Has(a, k) then Get(a, k) else Get(b, k)
    decreases |a|
  {
    if a != [] {
      assert (a + b)[0] == a[0];
      assert (a + b)[1..] == a[1..] + b;
      GetAppend(a[1..], b, k);
    } else {
      assert a + b == b;
    }
  }

  /** The first pair with a key is the one a lookup finds. */
  lemma {:induction false} GetFirst(d: Dict, p: nat)
    requires p < |d| && forall i :: 0 <= i < p ==> d[i].0 != d[p].0
    ensures Get(d, d[p].0) == Some(d[p].1)
    decreases p
  {
    if p > 0 {
      assert d[1..][p - 1] == d[p];
      GetFirst(d[1..], p - 1);
    }
  }

  /** The elements `for x in j` visits: list items, the characters of a string, the keys
      of a dict; anything else raises TypeError. */
  function Iterate(j: Json): (r: Result<seq<Json>>)
    ensures r.Ok? <==> j.JList? || j.JStr? || j.JObj?
    ensures j.JList? ==> r == Ok(j.items)
  {
    match j
    case JList(xs) => Ok(xs)
    case JStr(s) => Ok(seq(|s|, i requires 0 <= i < |s| => JStr([s[i]])))
    case JObj(fs) => Ok(seq(|fs|, i requires 0 <= i < |fs| => JStr(fs[i].0)))
    case _ => Err(TypeError("object is not iterable"))
  }

  /** The items an `if item:` filter keeps, in their original order. */
  function TruthyItems(xs: seq<Json>): (r: seq<Json>)
    ensures |r| <= |xs|
    ensures forall k :: 0 <= k < |r| ==> Truthy(r[k]) && r[k] in xs
    ensures (forall i :: 0 <= i < |xs| ==> Truthy(xs[i])) ==> r == xs
    decreases |xs|
  {
    if xs == [] then []
    else (if Truthy(xs[0]) then [xs[0]] else []) + TruthyItems(xs[1..])
  }

  /** The filter works item by item: filtering a concatenation filters each part. With
      `TruthyItemsOne` this fixes the result: every truthy item is kept, once, in input
      order. */
  lemma {:induction false} TruthyItemsAppend(a: seq<Json>, b: seq<Json>)
    ensures TruthyItems(a + b) == TruthyItems(a) + TruthyItems(b)
    decreases |a|
  {
    if a == [] {
      assert a + b == b;
    } else {
      var h := if Truthy(a[0]) then [a[0]] else [];
      calc {
        TruthyItems(a + b);
        { assert (a + b)[0] == a[0] && (a + b)[1..] == a[1..] + b; }
        h + TruthyItems(a[1..] + b);
        { TruthyItemsAppend(a[1..], b); }
        h + (TruthyItems(a[1..]) + TruthyItems(b));
        (h + TruthyItems(a[1..])) + TruthyItems(b);
        TruthyItems(a) + TruthyItems(b);
      }
    }
  }

  /** A single item is kept exactly when it is truthy. */
  lemma TruthyItemsOne(x: Json)
    ensures TruthyItems([x]) == if Truthy(x) then [x] else []
  {
  }

  /** `float(x)`: numbers and booleans convert; strings go through the decimal parser;
      None, lists and dicts raise TypeError (None here). */
  function ToFloat(j: Json): (r: Option<real>)
    ensures j.JInt? ==> r == Some(j.i as real)
    ensures j.JFloat? ==> r == Some(j.f)
    ensures j.JBool? ==> r == Some(if j.b then 1.0 else 0.0)
    ensures j.JStr? ==> r == ParseFloat(j.s)
    ensures j.JNull? || j.JList? || j.JObj? ==> r == None
  {
    match j
    case JBool(b) => Some(if b then 1.0 else 0.0)
    case JInt(i) => Some(i as real)
    case JFloat(f) => Some(f)
    case JStr(s) => ParseFloat(s)
    case _ => None
  }

  /** `repr(x)`: containers show their items' and keys' reprs. */
  function Repr(j: Json): (r: string)
    ensures |r| > 0
    decreases j
  {
    match j
    case JNull => "None"
    case JBool(b) => if b then "True" else "False"
    case JInt(i) => IntText(i)
    case JFloat(f) => FloatText(f)
    case JStr(s) => StrRepr(s)
    case JList(xs) =>
      "[" + Join(seq(|xs|, i requires 0 <= i < |xs| => Repr(xs[i])), ", ") + "]"
    case JObj(fs) =>
      "{" + Join(seq(|fs|, i requires 0 <= i < |fs| => StrRepr(fs[i].0) + ": " + Repr(fs[i].1)), ", ") + "}"
  }

  /** `repr(s)` for a string: in single quotes, or in double quotes when it holds a single
      quote and no double quote; each character escaped as `CharRepr` says. */
  function StrRepr(s: string): (r: string)
    ensures |r| >= 2 && r[0] == r[|r| - 1] == ReprQuote(s)
  {
    var q := ReprQuote(s);
    [q] + Join(seq(|s|, i requires 0 <= i < |s| => CharRepr(s[i], q)), "") + [q]
  }

  function ReprQuote(s: string): char {
    if '\'' in s && '"' !in s then '"' else '\''
  }

  function HexDigit(n: nat): (c: char)
    requires n < 16
  {
    if n < 10 then DigitChar(n) else (n - 10 + 'a' as int) as char
  }

  /** One character of a string's repr, inside quotes `q`: the backslash and the quote
      itself are escaped, tab, newline and carriage return become `\t`, `\n`, `\r`, the
      other C0 controls, DEL, and U+0080 to U+00A0 and U+00AD become `\xhh`; everything
      else stands for itself. */
  function CharRepr(c: char, q: char): (r: string)
    ensures |r| > 0
    ensures r[0] == '\\' || r == [c]
  {
    var n := c as int;
    if c == q || c == '\\' then ['\\', c]
    else if c == '\t' then "\\t"
    else if c == '\n' then "\\n"
    else if c == '\r' then "\\r"
    else if n < 0x20 || (0x7f <= n <= 0xa0) || n == 0xad then "\\x" + [HexDigit(n / 16), HexDigit(n % 16)]
    else [c]
  }

  /** The characters `repr` shows as themselves inside quotes `q`. */
  predicate ReprPlain(c: char, q: char) {
    var n := c as int;
    c != q && c != '\\' && n >= 0x20 && !(0x7f <= n <= 0xa0) && n != 0xad
  }

  /** A string's repr holds no raw newline, carriage return or tab. */
  lemma StrReprOneLine(s: string)
    ensures '\n' !in StrRepr(s) && '\r' !in StrRepr(s) && '\t' !in StrRepr(s)
  {
    var q := ReprQuote(s);
    var parts := seq(|s|, i requires 0 <= i < |s| => CharRepr(s[i], q));
    forall i | 0 <= i < |parts|
      ensures '\n' !in parts[i] && '\r' !in parts[i] && '\t' !in parts[i]
    {
      CharReprOneLine(s[i], q);
    }
    JoinAvoids(parts, "", '\n');
    JoinAvoids(parts, "", '\r');
    JoinAvoids(parts, "", '\t');
  }

  lemma CharReprOneLine(c: char, q: char)
    requires q == '\'' || q == '"'
    ensures '\n' !in CharRepr(c, q) && '\r' !in CharRepr(c, q) && '\t' !in CharRepr(c, q)
  {
    var n := c as int;
    if !(c == q || c == '\\') && c != '\t' && c != '\n' && c != '\r'
       && (n < 0x20 || (0x7f <= n <= 0xa0) || n == 0xad) {
      var r := CharRepr(c, q);
      assert r == "\\x" + [HexDigit(n / 16), HexDigit(n % 16)];
      assert n / 16 < 16;
    }
  }

  /** A string whose characters all show as themselves is its repr minus the quotes. */
  lemma StrReprPlain(s: string)
    requires forall i :: 0 <= i < |s| ==> ReprPlain(s[i], ReprQuote(s))
    ensures StrRepr(s) == [ReprQuote(s)] + s + [ReprQuote(s)]
  {
    var q := ReprQuote(s);
    var parts := seq(|s|, i requires 0 <= i < |s| => CharRepr(s[i], q));
    assert parts == seq(|s|, i requires 0 <= i < |s| => [s[i]]);
    JoinSingles(s);
  }

  lemma {:induction false} JoinSingles(s: string)
    ensures Join(seq(|s|, i requires 0 <= i < |s| => [s[i]]), "") == s
    decreases |s|
  {
    var parts := seq(|s|, i requires 0 <= i < |s| => [s[i]]);
    if |s| > 1 {
      JoinSingles(s[1..]);
      assert parts[1..] == seq(|s[1..]|, i requires 0 <= i < |s[1..]| => [s[1..][i]]);
      assert s == [s[0]] + s[1..];
    } else if |s| == 1 {
      assert s == [s[0]];
    }
  }

  /** A string holding a single quote is shown in double quotes. */
  lemma StrReprQuoteExample()
    ensures StrRepr("it's") == "\"it's\""
  {
    StrReprPlain("it's");
  }

  /** A newline is shown escaped, inside single quotes. */
  lemma StrReprNewlineExample()
    ensures StrRepr("a\nb") == "'a\\nb'"
  {
    var parts := seq(3, i requires 0 <= i < 3 => CharRepr("a\nb"[i], '\''));
    assert ReprQuote("a\nb") == '\'';
    assert parts == ["a", "\\n", "b"];
    assert parts[1..] == ["\\n", "b"] && parts[1..][1..] == ["b"];
    assert Join(parts[1..][1..], "") == "b";
    assert Join(parts[1..], "") == "\\n" + "" + "b";
    assert Join(parts, "") == "a" + "" + ("\\n" + "" + "b");
    assert StrRepr("a\nb") == ['\''] + Join(parts, "") + ['\''];
  }

  /** `str(x)` (also what an f-string interpolates): a string is itself, anything else its repr. */
  function PyStr(j: Json): (r: string)
    ensures j.JStr? ==> r == j.s
    ensures !j.JStr? ==> |r| > 0
  {
    if j.JStr? then j.s else Repr(j)
  }

  /** The text of a truthy value is never empty. */
  lemma TruthyText(j: Json)
    requires Truthy(j)
    ensures PyStr(j) != ""
  {
  }
}

=== FILE: nfo_generator.dfy ===
/**
  The NFO renderer (`NfoGenerator` in nfo_generator.py): a converted record becomes a
  `<movie>` or `<actor>` element tree, which is serialised and framed with an XML
  declaration. The children of each root are laid out as a list of blocks, one per tag in
  source order, so the fixed element order and each conditional emission can be stated
  once and read off.
 */
module NfoGenerator {
  import opened Wrappers
  import opened PyText
  import opened Json
  import opened Seqs
  import opened Records
  import opened Elements

  // ---------------------------------------------------------------------------
  // <movie>
  // ---------------------------------------------------------------------------

  /** The tags `_generate_movie_nfo` appends to `<movie>`, in the order it appends them. */
  const MovieTags := ["title", "originaltitle", "plot", "userrating", "premiered", "year",
                      "studio", "runtime", "uniqueid", "genre", "tag", "actor"]

  /** The `<uniqueid>` element, built only from a truthy mapping: `type` defaults to
      "stash", `default="true"` only for a truthy `default`, and the text is `value` as it
      is (not passed through `_add_text_element`). */
  function UniqueIdElems(u: Json): (es: seq<Elem>)
    ensures |es| == (if Truthy(u) && u.JObj? then 1 else 0)
    ensures forall i :: 0 <= i < |es| ==> es[i].tag == "uniqueid" && es[i].children == []
  {
    if Truthy(u) && u.JObj? then
      [Elem("uniqueid",
            [("type", GetOr(u.fields, "type", JStr("stash")))]
            + (if Truthy(Lookup(u.fields, "default")) then [("default", JStr("true"))] else []),
            GetOr(u.fields, "value", JStr("")),
            [])]
    else []
  }

  /** The tags inside a movie's `<actor>`, in the order they are appended. */
  const ActorChildTags := ["name", "role", "order"]

  /** `<name>` and `<role>` only when non-empty, `<order>` whenever `order` is not None. */
  function ActorChildBlocks(a: Dict): (bs: seq<seq<Elem>>)
    ensures |bs| == |ActorChildTags|
  {
    var name := GetOr(a, "name", JStr(""));
    var role := GetOr(a, "role", JStr(""));
    var order := Lookup(a, "order");
    [WhenTruthy("name", name, name),
     WhenTruthy("role", role, role),
     if order.JNull? then [] else [TextElem("order", Str(order))]]
  }

  /** One `<actor>` of a movie, built from an actor mapping. */
  function ActorElem(a: Dict): (e: Elem)
    ensures e.tag == "actor" && e.attrs == [] && e.text == JNull
  {
    Elem("actor", [], JNull, Concat(ActorChildBlocks(a)))
  }

  /** The step of the actors loop at one entry: mappings give an `<actor>`, anything else
      nothing. */
  function ActorElemAt(x: Json, i: nat): Option<Elem> {
    if x.JObj? then Some(ActorElem(x.fields)) else None
  }

  /** The `<actor>` elements of a movie, one per mapping entry, in order. */
  function ActorElems(xs: seq<Json>): (es: seq<Elem>)
    ensures |es| <= |xs|
    ensures forall k :: 0 <= k < |es| ==> es[k].tag == "actor"
  {
    FilterMapSpec(xs, ActorElemAt);
    FilterMap(xs, ActorElemAt)
  }

  /** What `_generate_movie_nfo` reads from the dict: the four always-written values with
      their `get` defaults, the five optional ones (None when absent), and what iterating
      `genres` and `actors` (default `[]`) visited. */
  datatype MovieInput = MovieInput(
    title: Json, originaltitle: Json, plot: Json, userrating: Json,
    premiered: Json, year: Json, studio: Json, runtime: Json, uniqueid: Json,
    genres: seq<Json>, actors: seq<Json>)

  function ReadMovie(nfo: Dict, genres: seq<Json>, actors: seq<Json>): (m: MovieInput)
    ensures m.genres == genres && m.actors == actors
  {
    MovieInput(
      GetOr(nfo, "title", JStr("")), GetOr(nfo, "originaltitle", JStr("")),
      GetOr(nfo, "plot", JStr("")), GetOr(nfo, "userrating", JInt(0)),
      Lookup(nfo, "premiered"), Lookup(nfo, "year"), Lookup(nfo, "studio"),
      Lookup(nfo, "runtime"), Lookup(nfo, "uniqueid"),
      genres, actors)
  }

  /** The block of `<movie>` children tagged `MovieTags[k]`, as `_generate_movie_nfo`
      appends them. */
  function MovieBlock(m: MovieInput, k: nat): (b: seq<Elem>)
    requires k < |MovieTags|
    ensures Tagged(b, MovieTags[k])
  {
    if k == 0 then [TextElem("title", m.title)]
    else if k == 1 then [TextElem("originaltitle", m.originaltitle)]
    else if k == 2 then [TextElem("plot", m.plot)]
    else if k == 3 then [TextElem("userrating", Str(m.userrating))]
    else if k == 4 then WhenTruthy("premiered", m.premiered, m.premiered)
    else if k == 5 then WhenTruthy("year", m.year, Str(m.year))
    else if k == 6 then WhenTruthy("studio", m.studio, m.studio)
    else if k == 7 then WhenTruthy("runtime", m.runtime, Str(m.runtime))
    else if k == 8 then UniqueIdElems(m.uniqueid)
    else if k == 9 then TextBlock("genre", TruthyItems(m.genres))
    else if k == 10 then TextBlock("tag", TruthyItems(m.genres))
    else ActorElems(m.actors)
  }

  /** The children of `<movie>`, one block per entry of `MovieTags`. */
  function MovieBlocks(m: MovieInput): (bs: seq<seq<Elem>>)
    ensures |bs| == |MovieTags|
    ensures BlocksTagged(bs, MovieTags)
  {
    seq(|MovieTags|, k requires 0 <= k < |MovieTags| => MovieBlock(m, k))
  }

  function MovieOf(m: MovieInput): (e: Elem)
    ensures e.tag == "movie" && e.attrs == [] && e.text == JNull
  {
    Elem("movie", [], JNull, Concat(MovieBlocks(m)))
  }

  /** `_generate_movie_nfo` up to serialisation: iterating a `genres` or `actors` value
      that is not iterable raises TypeError, genres first. */
  function MovieTree(nfo: Dict): (r: Result<Elem>)
    ensures r.Err? <==> Iterate(GetOr(nfo, "genres", JList([]))).Err?
                        || Iterate(GetOr(nfo, "actors", JList([]))).Err?
    ensures r.Err? ==> r.error.TypeError?
    ensures r.Ok? ==> r.value == MovieOf(ReadMovie(nfo, Iterate(GetOr(nfo, "genres", JList([]))).value,
                                                   Iterate(GetOr(nfo, "actors", JList([]))).value))
  {
    var genres :- Iterate(GetOr(nfo, "genres", JList([])));
    var actors :- Iterate(GetOr(nfo, "actors", JList([])));
    Ok(MovieOf(ReadMovie(nfo, genres, actors)))
  }

  // ---------------------------------------------------------------------------
  // <actor> (performer NFO)
  // ---------------------------------------------------------------------------

  /** One `details` entry: nothing for a falsy value, one element per truthy item of a
      list, otherwise one element; every text is `str()` of what it renders. */
  function DetailElems(key: string, v: Json): (es: seq<Elem>)
    ensures !Truthy(v) ==> es == []
    ensures Truthy(v) && v.JList? ==> |es| == |TruthyItems(v.items)|
    ensures Truthy(v) && v.JList? ==>
              forall i :: 0 <= i < |es| ==> es[i] == TextElem(key, Str(TruthyItems(v.items)[i]))
    ensures Truthy(v) && !v.JList? ==> es == [TextElem(key, Str(v))]
    ensures forall i :: 0 <= i < |es| ==> es[i].tag == key && es[i].text.JStr? && es[i].text.s != ""
    ensures forall i :: 0 <= i < |es| ==> es[i].attrs == [] && es[i].children == []
  {
    if !Truthy(v) then []
    else if v.JList? then
      var items := TruthyItems(v.items);
      TextBlock(key, seq(|items|, i requires 0 <= i < |items| => Str(items[i])))
    else [TextElem(key, Str(v))]
  }

  /** The elements of each `details` entry, in insertion order. */
  function DetailBlocks(fs: Dict): (bs: seq<seq<Elem>>)
    ensures |bs| == |fs|
  {
    seq(|fs|, i requires 0 <= i < |fs| => DetailElems(fs[i].0, fs[i].1))
  }

  /** A non-empty string text, no attributes, no children. */
  predicate StrLeaf(e: Elem) {
    e.text.JStr? && e.text.s != "" && e.attrs == [] && e.children == []
  }

  /** The `details` loop over the mapping's entries in insertion order. */
  function DetailsElems(fs: Dict): (es: seq<Elem>)
    ensures forall i :: 0 <= i < |es| ==> es[i].text.JStr? && es[i].text.s != ""
    ensures forall i :: 0 <= i < |es| ==> es[i].attrs == [] && es[i].children == []
  {
    var bs := DetailBlocks(fs);
    assert forall k, j :: 0 <= k < |bs| && 0 <= j < |bs[k]| ==> StrLeaf(bs[k][j]);
    ConcatAll(bs, StrLeaf);
    assert forall i :: 0 <= i < |Concat(bs)| ==> StrLeaf(Concat(bs)[i]);
    Concat(bs)
  }

  /** One `social` entry: an element for a truthy value. */
  function SocialElemAt(kv: (string, Json), i: nat): Option<Elem> {
    if Truthy(kv.1) then Some(TextElem(kv.0, Str(kv.1))) else None
  }

  /** The `social` loop over the mapping's entries in insertion order. */
  function SocialElems(fs: Dict): (es: seq<Elem>)
    ensures |es| <= |fs|
    ensures forall i :: 0 <= i < |es| ==> es[i].text.JStr? && es[i].attrs == [] && es[i].children == []
  {
    FilterMapSpec(fs, SocialElemAt);
    FilterMap(fs, SocialElemAt)
  }

  /** What `_generate_actor_nfo` reads from the dict, with the `get` defaults. */
  datatype ActorInput = ActorInput(name: Json, biography: Json, birthdate: Json, details: Json, social: Json)

  function ReadActor(nfo: Dict): ActorInput {
    ActorInput(GetOr(nfo, "name", JStr("")), GetOr(nfo, "biography", JStr("")),
               Lookup(nfo, "birthdate"), GetOr(nfo, "details", JObj([])), GetOr(nfo, "social", JObj([])))
  }

  /** The children of the performer's `<actor>`: name, biography, birth date, details,
      social. */
  function ActorBlocks(a: ActorInput): (bs: seq<seq<Elem>>)
    ensures |bs| == 5
  {
    [[TextElem("name", a.name)],
     WhenTruthy("biography", a.biography, a.biography),
     WhenTruthy("birthdate", a.birthdate, a.birthdate),
     if a.details.JObj? then DetailsElems(a.details.fields) else [],
     if a.social.JObj? then SocialElems(a.social.fields) else []]
  }

  function ActorOf(a: ActorInput): (e: Elem)
    ensures e.tag == "actor" && e.attrs == [] && e.text == JNull
  {
    Elem("actor", [], JNull, Concat(ActorBlocks(a)))
  }

  /** `_generate_actor_nfo` up to serialisation: it never fails. The children are the
      name (default ""), the biography and birth date when truthy, then the `details`
      and `social` elements when those are mappings (default `{}`). */
  function ActorTree(nfo: Dict): (e: Elem)
    ensures e.tag == "actor" && e.attrs == [] && e.text == JNull
    ensures e.children
            == [TextElem("name", GetOr(nfo, "name", JStr("")))]
               + (if Truthy(Lookup(nfo, "biography")) then [TextElem("biography", Lookup(nfo, "biography"))] else [])
               + (if Truthy(Lookup(nfo, "birthdate")) then [TextElem("birthdate", Lookup(nfo, "birthdate"))] else [])
               + (if GetOr(nfo, "details", JObj([])).JObj? then DetailsElems(GetOr(nfo, "details", JObj([])).fields) else [])
               + (if GetOr(nfo, "social", JObj([])).JObj? then SocialElems(GetOr(nfo, "social", JObj([])).fields) else [])
  {
    var a := ReadActor(nfo);
    ActorLayout(a);
    assert Truthy(a.biography) <==> Truthy(Lookup(nfo, "biography"));
    assert Truthy(a.biography) ==> a.biography == Lookup(nfo, "biography");
    ActorOf(a)
  }

  /** `generate`: "scene" and "gallery" render a movie, "performer" an actor, any other
      kind is a ValueError. */
  function Generate(nfo: Dict, kind: string): (r: Result<Elem>)
    ensures kind in {"scene", "gallery"} ==> r == MovieTree(nfo)
    ensures kind == "performer" ==> r == Ok(ActorTree(nfo))
    ensures kind !in {"scene", "gallery", "performer"} ==>
              r == Err(ValueError("Unsupported data type: " + kind))
  {
    if kind in {"scene", "gallery"} then MovieTree(nfo)
    else if kind == "performer" then Ok(ActorTree(nfo))
    else Err(ValueError("Unsupported data type: " + kind))
  }

  // ---------------------------------------------------------------------------
  // Framing
  // ---------------------------------------------------------------------------

  /** The declaration `_format_xml` writes in front of every document. */
  function Declaration(encoding: string): string {
    "<?xml version=\"1.0\" encoding=\"" + encoding + "\" standalone=\"yes\" ?>"
  }

  /** `[line for line in lines if line.strip()]`. */
  function NonBlankLines(lines: seq<string>): (r: seq<string>)
    ensures |r| <= |lines|
    ensures forall k :: 0 <= k < |r| ==> !IsBlank(r[k]) && r[k] in lines
    decreases |lines|
  {
    if lines == [] then []
    else (if IsBlank(lines[0]) then [] else [lines[0]]) + NonBlankLines(lines[1..])
  }

  /** The filter works line by line: filtering a concatenation filters each part. With
      `NonBlankLinesOne` this fixes the result: every non-blank line is kept, once, in its
      original order. */
  lemma {:induction false} NonBlankLinesAppend(a: seq<string>, b: seq<string>)
    ensures NonBlankLines(a + b) == NonBlankLines(a) + NonBlankLines(b)
    decreases |a|
  {
    if a == [] {
      assert a + b == b;
    } else {
      var h := if IsBlank(a[0]) then [] else [a[0]];
      calc {
        NonBlankLines(a + b);
        { assert (a + b)[0] == a[0] && (a + b)[1..] == a[1..] + b; }
        h + NonBlankLines(a[1..] + b);
        { NonBlankLinesAppend(a[1..], b); }
        h + (NonBlankLines(a[1..]) + NonBlankLines(b));
        (h + NonBlankLines(a[1..])) + NonBlankLines(b);
        NonBlankLines(a) + NonBlankLines(b);
      }
    }
  }

  /** A single line is kept exactly when it is not blank. */
  lemma NonBlankLinesOne(line: string)
    ensures NonBlankLines([line]) == if IsBlank(line) then [] else [line]
  {
  }

  /** Lines that are all non-blank pass the filter unchanged. */
  lemma {:induction false} NonBlankLinesKeep(lines: seq<string>)
    requires forall k :: 0 <= k < |lines| ==> !IsBlank(lines[k])
    ensures NonBlankLines(lines) == lines
    decreases |lines|
  {
    if lines != [] {
      assert !IsBlank(lines[0]);
      NonBlankLinesKeep(lines[1..]);
      assert lines == [lines[0]] + lines[1..];
    }
  }

  /** `'\n'.join(line for line in s.split('\n') if line.strip())`. */
  function DropBlankLines(s: string): string {
    Join(NonBlankLines(Split(s, '\n')), "\n")
  }

  /** The framing step of `_format_xml`; `body` is what the serialiser (and, in pretty
      mode, the pretty-printer) produced. */
  function FormatXml(encoding: string, pretty: bool, body: string): (r: string)
    ensures |r| >= |Declaration(encoding)| && r[..|Declaration(encoding)|] == Declaration(encoding)
    ensures !pretty ==> r[|Declaration(encoding)|..] == body
  {
    var decl := Declaration(encoding);
    var r := if pretty then decl + "\n" + DropBlankLines(body) else decl + body;
    assert r[..|decl|] == decl;
    r
  }

  /** The whole of `generate`: the tree, a TypeError when ElementTree cannot serialise it,
      then the framed text. `tostring` stands for `ET.tostring`; in pretty mode its output
      goes to `prettify`, which stands for minidom's `parseString` followed by
      `toprettyxml` and gives None where expat rejects the text (a character XML 1.0 does
      not allow, for one), which reaches the caller as an ExpatError. */
  function GenerateXml(nfo: Dict, kind: string, encoding: string, pretty: bool,
                       tostring: Elem -> string, prettify: string -> Option<string>): (r: Result<string>)
    ensures Generate(nfo, kind).Err? ==> r == Err(Generate(nfo, kind).error)
    ensures Generate(nfo, kind).Ok? && !Serializable(Generate(nfo, kind).value) ==>
              r.Err? && r.error.TypeError?
    ensures Generate(nfo, kind).Ok? && Serializable(Generate(nfo, kind).value) && !pretty ==>
              r == Ok(FormatXml(encoding, false, tostring(Generate(nfo, kind).value)))
    ensures Generate(nfo, kind).Ok? && Serializable(Generate(nfo, kind).value) && pretty ==>
              var parsed := prettify(tostring(Generate(nfo, kind).value));
              (parsed.None? ==> r.Err? && r.error.ExpatError?)
              && (parsed.Some? ==> r == Ok(FormatXml(encoding, true, parsed.value)))
  {
    var tree :- Generate(nfo, kind);
    if !Serializable(tree) then Err(TypeError("cannot serialize"))
    else if !pretty then Ok(FormatXml(encoding, false, tostring(tree)))
    else match prettify(tostring(tree))
      case None => Err(ExpatError("not well-formed (invalid token)"))
      case Some(body) => Ok(FormatXml(encoding, true, body))
  }

  // ---------------------------------------------------------------------------
  // What a <movie> holds
  // ---------------------------------------------------------------------------

  lemma MovieTagsDistinct()
    ensures Distinct(MovieTags)
  {
  }

  /** The elements of `<movie>` with the tag `MovieTags[p]` are exactly block `p`. */
  lemma MovieChildren(m: MovieInput, p: nat)
    requires p < |MovieTags|
    ensures WithTag(MovieOf(m).children, MovieTags[p]) == MovieBlocks(m)[p]
  {
    MovieTagsDistinct();
    ConcatWithTag(MovieBlocks(m), MovieTags, p);
  }

  /** The children of `<movie>` come in the fixed order title, originaltitle, plot,
      userrating, premiered, year, studio, runtime, uniqueid, genres, tags, actors, and
      carry no other tag. */
  lemma MovieLayout(m: MovieInput)
    ensures FollowsOrder(MovieOf(m).children, MovieTags)
  {
    MovieTagsDistinct();
    ConcatFollowsOrder(MovieBlocks(m), MovieTags);
  }

  /** Title, original title and plot are always there, once each, with their text (or
      "" for a falsy one). */
  lemma MovieAlways(m: MovieInput)
    ensures WithTag(MovieOf(m).children, "title") == [TextElem("title", m.title)]
    ensures WithTag(MovieOf(m).children, "originaltitle") == [TextElem("originaltitle", m.originaltitle)]
    ensures WithTag(MovieOf(m).children, "plot") == [TextElem("plot", m.plot)]
  {
    var bs := MovieBlocks(m);
    assert MovieTags[0] == "title" && bs[0] == [TextElem("title", m.title)];
    assert MovieTags[1] == "originaltitle" && bs[1] == [TextElem("originaltitle", m.originaltitle)];
    assert MovieTags[2] == "plot" && bs[2] == [TextElem("plot", m.plot)];
    MovieChildren(m, 0);
    MovieChildren(m, 1);
    MovieChildren(m, 2);
  }

  /** The user rating is always there, once, as `str()` of the stored value (whose default
      is 0). */
  lemma MovieUserRating(m: MovieInput)
    ensures WithTag(MovieOf(m).children, "userrating") == [TextElem("userrating", Str(m.userrating))]
  {
    var bs := MovieBlocks(m);
    assert MovieTags[3] == "userrating" && bs[3] == [TextElem("userrating", Str(m.userrating))];
    MovieChildren(m, 3);
  }

  /** Premiere date, year, studio and runtime appear once when truthy and not at all
      otherwise; year and runtime are written through `str()`. */
  lemma MovieOptional(m: MovieInput)
    ensures WithTag(MovieOf(m).children, "premiered")
            == if Truthy(m.premiered) then [TextElem("premiered", m.premiered)] else []
    ensures WithTag(MovieOf(m).children, "year")
            == if Truthy(m.year) then [TextElem("year", Str(m.year))] else []
    ensures WithTag(MovieOf(m).children, "studio")
            == if Truthy(m.studio) then [TextElem("studio", m.studio)] else []
    ensures WithTag(MovieOf(m).children, "runtime")
            == if Truthy(m.runtime) then [TextElem("runtime", Str(m.runtime))] else []
  {
    var bs := MovieBlocks(m);
    assert MovieTags[4] == "premiered" && bs[4] == WhenTruthy("premiered", m.premiered, m.premiered);
    assert MovieTags[5] == "year" && bs[5] == WhenTruthy("year", m.year, Str(m.year));
    assert MovieTags[6] == "studio" && bs[6] == WhenTruthy("studio", m.studio, m.studio);
    assert MovieTags[7] == "runtime" && bs[7] == WhenTruthy("runtime", m.runtime, Str(m.runtime));
    MovieChildren(m, 4);
    MovieChildren(m, 5);
    MovieChildren(m, 6);
    MovieChildren(m, 7);
  }

  /** A runtime of 0 minutes and an empty studio leave no element behind. */
  lemma FalsyFieldsVanish(m: MovieInput)
    requires m.runtime == JInt(0) && m.studio == JStr("")
    ensures WithTag(MovieOf(m).children, "runtime") == []
    ensures WithTag(MovieOf(m).children, "studio") == []
  {
    MovieOptional(m);
  }

  /** One `<genre>` per truthy genre, then one `<tag>` per truthy genre: both blocks have the
      same length and the same texts in the same order, and empty genres are in neither. */
  lemma GenresAndTags(m: MovieInput)
    ensures |WithTag(MovieOf(m).children, "genre")| == |TruthyItems(m.genres)|
    ensures |WithTag(MovieOf(m).children, "tag")| == |TruthyItems(m.genres)|
    ensures forall i :: 0 <= i < |TruthyItems(m.genres)| ==>
              WithTag(MovieOf(m).children, "genre")[i].text == TruthyItems(m.genres)[i]
              && WithTag(MovieOf(m).children, "tag")[i].text == TruthyItems(m.genres)[i]
              && Truthy(TruthyItems(m.genres)[i])
  {
    var kept := TruthyItems(m.genres);
    assert MovieTags[9] == "genre" && MovieBlocks(m)[9] == TextBlock("genre", kept);
    assert MovieTags[10] == "tag" && MovieBlocks(m)[10] == TextBlock("tag", kept);
    MovieChildren(m, 9);
    MovieChildren(m, 10);
  }

  /** `<uniqueid>` exists only for a truthy mapping; its `type` defaults to "stash",
      `default="true"` is set only for a truthy `default`, and its text is `value`. */
  lemma UniqueIdRules(m: MovieInput)
    ensures |WithTag(MovieOf(m).children, "uniqueid")|
            == (if Truthy(m.uniqueid) && m.uniqueid.JObj? then 1 else 0)
    ensures |WithTag(MovieOf(m).children, "uniqueid")| == 1 ==>
              var u := m.uniqueid.fields;
              var e := WithTag(MovieOf(m).children, "uniqueid")[0];
              Get(e.attrs, "type") == Some(GetOr(u, "type", JStr("stash")))
              && Get(e.attrs, "default") == (if Truthy(Lookup(u, "default")) then Some(JStr("true")) else None)
              && e.text == GetOr(u, "value", JStr(""))
              && e.children == []
  {
    assert MovieTags[8] == "uniqueid" && MovieBlocks(m)[8] == UniqueIdElems(m.uniqueid);
    MovieChildren(m, 8);
  }

  /** The `<uniqueid>` element can be written exactly when `_escape_attrib` accepts its
      `type` and its `value` is writable text; `default` is always the string "true". */
  lemma UniqueIdSerializable(u: Json)
    ensures (forall i :: 0 <= i < |UniqueIdElems(u)| ==> Serializable(UniqueIdElems(u)[i]))
            <==> (Truthy(u) && u.JObj? ==>
                    AttrOk(GetOr(u.fields, "type", JStr("stash")))
                    && TextOk(GetOr(u.fields, "value", JStr(""))))
  {
    if Truthy(u) && u.JObj? {
      var e := UniqueIdElems(u)[0];
      var t := GetOr(u.fields, "type", JStr("stash"));
      assert e.attrs[0] == ("type", t);
      assert forall i :: 1 <= i < |e.attrs| ==> e.attrs[i] == ("default", JStr("true"));
      assert e.text == GetOr(u.fields, "value", JStr("")) && e.children == [];
    }
  }

  /** A list given as `type` with no special string in it is written (as `[]` here), so
      the element is serialisable. */
  lemma UniqueIdListTypeWritable(u: Json)
    requires u == JObj([("type", JList([])), ("value", JStr("u"))])
    ensures |UniqueIdElems(u)| == 1
    ensures UniqueIdElems(u)[0].attrs == [("type", JList([]))]
    ensures Serializable(UniqueIdElems(u)[0])
  {
    assert Lookup(u.fields, "default") == JNull;
    assert GetOr(u.fields, "type", JStr("stash")) == JList([]);
    assert GetOr(u.fields, "value", JStr("")) == JStr("u");
    UniqueIdSerializable(u);
  }

  /** The `<actor>` elements are the actor loop's output: one per mapping entry, in order,
      and nothing for any other entry. */
  lemma MovieActorElems(m: MovieInput)
    ensures WithTag(MovieOf(m).children, "actor") == ActorElems(m.actors)
    ensures |ActorElems(m.actors)| == |Kept(m.actors, ActorElemAt)|
    ensures forall i :: 0 <= i < |m.actors| ==> (m.actors[i].JObj? <==> i in Kept(m.actors, ActorElemAt))
    ensures StrictlyIncreasing(Kept(m.actors, ActorElemAt))
    ensures forall k :: 0 <= k < |ActorElems(m.actors)| ==>
              m.actors[Kept(m.actors, ActorElemAt)[k]].JObj?
              && ActorElems(m.actors)[k] == ActorElem(m.actors[Kept(m.actors, ActorElemAt)[k]].fields)
  {
    assert MovieTags[11] == "actor" && MovieBlocks(m)[11] == ActorElems(m.actors);
    MovieChildren(m, 11);
    FilterMapSpec(m.actors, ActorElemAt);
  }

  lemma ActorChildTagsDistinct()
    ensures Distinct(ActorChildTags)
  {
  }

  /** Inside a movie's `<actor>`: `<name>` only if non-empty, `<role>` only if non-empty,
      `<order>` whenever `order` is not None (0 included), in that order. */
  lemma ActorElemRules(a: Dict)
    ensures FollowsOrder(ActorElem(a).children, ActorChildTags)
    ensures WithTag(ActorElem(a).children, "name")
            == if Truthy(GetOr(a, "name", JStr(""))) then [TextElem("name", GetOr(a, "name", JStr("")))] else []
    ensures WithTag(ActorElem(a).children, "role")
            == if Truthy(GetOr(a, "role", JStr(""))) then [TextElem("role", GetOr(a, "role", JStr("")))] else []
    ensures WithTag(ActorElem(a).children, "order")
            == if Lookup(a, "order").JNull? then [] else [TextElem("order", Str(Lookup(a, "order")))]
  {
    var bs: seq<seq<Elem>> := ActorChildBlocks(a);
    ActorChildTagsDistinct();
    assert Tagged(bs[0], "name") && Tagged(bs[1], "role") && Tagged(bs[2], "order");
    assert BlocksTagged(bs, ActorChildTags);
    ConcatFollowsOrder(bs, ActorChildTags);
    ConcatWithTag(bs, ActorChildTags, 0);
    ConcatWithTag(bs, ActorChildTags, 1);
    ConcatWithTag(bs, ActorChildTags, 2);
  }

  // ---------------------------------------------------------------------------
  // What a performer's <actor> holds
  // ---------------------------------------------------------------------------

  /** `<name>` is always the first child. */
  lemma ActorNameFirst(a: ActorInput)
    ensures |ActorOf(a).children| >= 1
    ensures ActorOf(a).children[0] == TextElem("name", a.name)
  {
    var bs := ActorBlocks(a);
    assert Concat(bs[..1]) == Concat(bs[..0]) + bs[0];
    ConcatPrefix(bs, 1);
  }

  /** The performer's children in full: the name, the biography and the birth date when
      truthy, then the `details` elements, then the `social` ones; a `details` or `social`
      value that is not a mapping adds nothing. */
  lemma ActorLayout(a: ActorInput)
    ensures ActorOf(a).children
            == [TextElem("name", a.name)]
               + (if Truthy(a.biography) then [TextElem("biography", a.biography)] else [])
               + (if Truthy(a.birthdate) then [TextElem("birthdate", a.birthdate)] else [])
               + (if a.details.JObj? then DetailsElems(a.details.fields) else [])
               + (if a.social.JObj? then SocialElems(a.social.fields) else [])
  {
    var bs := ActorBlocks(a);
    assert bs[..5] == bs;
    assert bs[..4][..3] == bs[..3] && bs[..3][..2] == bs[..2] && bs[..2][..1] == bs[..1];
    assert bs[..1][..0] == [];
    assert Concat(bs[..1]) == bs[0];
    assert Concat(bs[..2]) == Concat(bs[..1]) + bs[1];
    assert Concat(bs[..3]) == Concat(bs[..2]) + bs[2];
    assert Concat(bs[..4]) == Concat(bs[..3]) + bs[3];
    assert Concat(bs) == Concat(bs[..4]) + bs[4];
  }

  /** The `details` elements of two runs of entries are those of the first followed by
      those of the second: the loop keeps insertion order. */
  lemma DetailsAppend(a: Dict, b: Dict)
    ensures DetailsElems(a + b) == DetailsElems(a) + DetailsElems(b)
  {
    var ab := a + b;
    forall i | 0 <= i < |ab|
      ensures DetailBlocks(ab)[i] == (DetailBlocks(a) + DetailBlocks(b))[i]
    {
      if i < |a| {
        assert ab[i] == a[i];
      } else {
        assert ab[i] == b[i - |a|];
      }
    }
    assert DetailBlocks(ab) == DetailBlocks(a) + DetailBlocks(b);
    ConcatAppend(DetailBlocks(a), DetailBlocks(b));
  }

  /** A single entry renders as `DetailElems` says. */
  lemma DetailsSingle(key: string, v: Json)
    ensures DetailsElems([(key, v)]) == DetailElems(key, v)
  {
    var bs := DetailBlocks([(key, v)]);
    assert bs == [DetailElems(key, v)] && bs[..0] == [];
    assert Concat(bs) == Concat(bs[..0]) + bs[0];
  }

  /** One `social` element per truthy value, tagged with its key and holding `str()` of the
      value, in insertion order. */
  lemma SocialSpec(fs: Dict)
    ensures |SocialElems(fs)| == |Kept(fs, SocialElemAt)|
    ensures forall i :: 0 <= i < |fs| ==> (Truthy(fs[i].1) <==> i in Kept(fs, SocialElemAt))
    ensures StrictlyIncreasing(Kept(fs, SocialElemAt))
    ensures forall k :: 0 <= k < |SocialElems(fs)| ==>
              SocialElems(fs)[k] == TextElem(fs[Kept(fs, SocialElemAt)[k]].0, Str(fs[Kept(fs, SocialElemAt)[k]].1))
  {
    FilterMapSpec(fs, SocialElemAt);
  }

  /** The performer tree serialises exactly when its name, biography and birth date are
      strings or falsy: details and social texts always go through `str()`. */
  lemma ActorTreeSerializable(a: ActorInput)
    ensures Serializable(ActorOf(a)) <==> TextOk(a.name) && TextOk(a.biography) && TextOk(a.birthdate)
  {
    ConcatAll(ActorBlocks(a), Serializable);
    ActorBlocksSerializable(a);
  }

  /** Block by block: only the name, biography and birth date blocks can fail. */
  lemma ActorBlocksSerializable(a: ActorInput)
    ensures (forall k, j :: 0 <= k < |ActorBlocks(a)| && 0 <= j < |ActorBlocks(a)[k]| ==>
               Serializable(ActorBlocks(a)[k][j]))
            <==> TextOk(a.name) && TextOk(a.biography) && TextOk(a.birthdate)
  {
    var bs: seq<seq<Elem>> := ActorBlocks(a);
    var name := TextElem("name", a.name);
    var bio := WhenTruthy("biography", a.biography, a.biography);
    var birth := WhenTruthy("birthdate", a.birthdate, a.birthdate);
    assert bs[0] == [name] && bs[1] == bio && bs[2] == birth;
    LeafSerializable(name);
    WhenTruthySerializable("biography", a.biography);
    WhenTruthySerializable("birthdate", a.birthdate);
    TailSerializable(a);
    if TextOk(a.name) && TextOk(a.biography) && TextOk(a.birthdate) {
      forall k, j | 0 <= k < |bs| && 0 <= j < |bs[k]|
        ensures Serializable(bs[k][j])
      {
        if k == 0 {
          assert bs[k][j] == name;
        } else if k == 1 {
          assert bs[k][j] == bio[j];
        } else if k == 2 {
          assert bs[k][j] == birth[j];
        }
      }
    }
    if forall k, j :: 0 <= k < |bs| && 0 <= j < |bs[k]| ==> Serializable(bs[k][j]) {
      assert Serializable(bs[0][0]);
      assert forall j :: 0 <= j < |bio| ==> Serializable(bs[1][j]);
      assert forall j :: 0 <= j < |birth| ==> Serializable(bs[2][j]);
    }
  }

  /** The `details` and `social` blocks always serialise: their texts go through `str()`. */
  lemma TailSerializable(a: ActorInput)
    ensures forall j :: 0 <= j < |ActorBlocks(a)[3]| ==> Serializable(ActorBlocks(a)[3][j])
    ensures forall j :: 0 <= j < |ActorBlocks(a)[4]| ==> Serializable(ActorBlocks(a)[4][j])
  {
    var ds := if a.details.JObj? then DetailsElems(a.details.fields) else [];
    var ss := if a.social.JObj? then SocialElems(a.social.fields) else [];
    assert ActorBlocks(a)[3] == ds && ActorBlocks(a)[4] == ss;
    forall j | 0 <= j < |ds|
      ensures Serializable(ds[j])
    {
      LeafSerializable(ds[j]);
    }
    forall j | 0 <= j < |ss|
      ensures Serializable(ss[j])
    {
      LeafSerializable(ss[j]);
    }
  }

  // ---------------------------------------------------------------------------
  // Dispatch and framing
  // ---------------------------------------------------------------------------

  /** Only an unknown kind is a ValueError; a movie kind gives a `<movie>` (or the
      iteration's TypeError), "performer" always gives an `<actor>`. */
  lemma GenerateKinds(nfo: Dict, kind: string)
    ensures Generate(nfo, kind).Err? && Generate(nfo, kind).error.ValueError?
            <==> kind !in {"scene", "gallery", "performer"}
    ensures Generate(nfo, kind).Ok? ==>
              Generate(nfo, kind).value.tag == (if kind == "performer" then "actor" else "movie")
    ensures kind == "performer" ==> Generate(nfo, kind).Ok?
  {
  }

  /** `"\n".join` of non-empty, newline-free lines splits back into those lines, and is
      empty only when there are none. */
  lemma JoinLines(lines: seq<string>)
    requires forall k :: 0 <= k < |lines| ==> !IsBlank(lines[k]) && '\n' !in lines[k]
    ensures Join(lines, "\n") == "" <==> lines == []
    ensures lines != [] ==> Split(Join(lines, "\n"), '\n') == lines
  {
    assert "\n" == ['\n'];
    if lines != [] {
      assert !IsBlank(lines[0]);
      JoinPrefix(lines, "\n");
      assert forall p :: p in lines ==> '\n' !in p;
      SplitJoin(lines, '\n');
    }
  }

  /** The first piece of a join starts it. */
  lemma JoinPrefix(parts: seq<string>, sep: string)
    requires |parts| >= 1
    ensures |Join(parts, sep)| >= |parts[0]| && Join(parts, sep)[..|parts[0]|] == parts[0]
  {
    if |parts| > 1 {
      assert Join(parts, sep) == parts[0] + (sep + Join(parts[1..], sep));
    }
  }

  /** What the blank-line filter leaves: the non-blank lines of the input, in order, and
      nothing else; "" exactly when every line was blank. */
  lemma DropBlankLinesSpec(s: string)
    ensures DropBlankLines(s) == "" <==> NonBlankLines(Split(s, '\n')) == []
    ensures DropBlankLines(s) != "" ==> Split(DropBlankLines(s), '\n') == NonBlankLines(Split(s, '\n'))
    ensures DropBlankLines(s) != "" ==>
              forall k :: 0 <= k < |Split(DropBlankLines(s), '\n')| ==> !IsBlank(Split(DropBlankLines(s), '\n')[k])
  {
    var lines := NonBlankLines(Split(s, '\n'));
    JoinLines(lines);
  }

  /** Filtering twice is filtering once. */
  lemma DropBlankLinesIdempotent(s: string)
    ensures DropBlankLines(DropBlankLines(s)) == DropBlankLines(s)
  {
    var r := DropBlankLines(s);
    DropBlankLinesSpec(s);
    if r == "" {
      assert Split("", '\n') == [""];
      assert IsBlank("");
      assert NonBlankLines([""]) == [];
    } else {
      NonBlankLinesKeep(Split(r, '\n'));
    }
  }

  /** In pretty mode the document's lines are the declaration and then the body's non-blank
      lines (a single empty line when there are none); the newline after the declaration is
      the only one added. */
  lemma PrettyLines(encoding: string, body: string)
    requires '\n' !in encoding
    ensures Split(FormatXml(encoding, true, body), '\n')
            == [Declaration(encoding)]
               + (if DropBlankLines(body) == "" then [""] else NonBlankLines(Split(body, '\n')))
  {
    var decl := Declaration(encoding);
    DeclarationOneLine(encoding);
    SplitCons(decl, '\n', DropBlankLines(body));
    assert FormatXml(encoding, true, body) == decl + ['\n'] + DropBlankLines(body);
    DropBlankLinesSpec(body);
    if DropBlankLines(body) == "" {
      assert Split("", '\n') == [""];
    }
  }

  lemma DeclarationOneLine(encoding: string)
    requires '\n' !in encoding
    ensures '\n' !in Declaration(encoding)
  {
    var a := "<?xml version=\"1.0\" encoding=\"";
    var b := "\" standalone=\"yes\" ?>";
    assert forall i :: 0 <= i < |a| ==> a[i] != '\n';
    assert forall i :: 0 <= i < |b| ==> b[i] != '\n';
    assert Declaration(encoding) == a + encoding + b;
  }
}

=== FILE: parsers.dfy ===
/**
  Record-kind detection and validation (`StashParser` in parsers.py): a first-match
  rule list over which keys a record has, where the only value ever looked at is
  whether `file` holds a mapping.
 */
module Parsers {
  import opened Wrappers
  import opened Json

  const SceneKind := "scene"
  const PerformerKind := "performer"
  const GalleryKind := "gallery"
  const UnknownKind := "unknown"

  /** `any(key in data for key in keys)`. */
  predicate AnyKey(d: Dict, keys: seq<string>) {
    exists i :: 0 <= i < |keys| && Has(d, keys[i])
  }

  /** `'file' in data and isinstance(data['file'], dict)`. */
  predicate FileIsMapping(d: Dict) {
    match Get(d, "file")
    case Some(v) => v.JObj?
    case None => false
  }

  const SceneFileKeys := ["file", "duration", "performers"]
  const PerformerKeys := ["gender", "birthdate", "ethnicity", "measurements"]
  const GalleryKeys := ["folder", "scenes"]
  const BasicKeys := ["title", "studio", "tags", "performers"]

  /** `detect_type`: the rules in source order, the first that fires decides. */
  function DetectType(d: Dict): (r: string)
    ensures r in {SceneKind, PerformerKind, GalleryKind, UnknownKind}
    ensures FileIsMapping(d) ==> r == SceneKind
    ensures r == GalleryKind ==> Has(d, "performers") && (Has(d, "folder") || Has(d, "scenes"))
    ensures r == PerformerKind ==> AnyKey(d, PerformerKeys)
    ensures r == UnknownKind ==> !FileIsMapping(d) && !AnyKey(d, PerformerKeys) && !AnyKey(d, BasicKeys)
  {
    if AnyKey(d, SceneFileKeys) && FileIsMapping(d) then SceneKind
    else
      assert FileIsMapping(d) ==> Has(d, SceneFileKeys[0]);
      if AnyKey(d, PerformerKeys) then PerformerKind
      else if AnyKey(d, GalleryKeys) && Has(d, "performers") then GalleryKind
      else if AnyKey(d, BasicKeys) then SceneKind
      else UnknownKind
  }

  /** `validate_scene_data`: a title or file information. */
  predicate ValidateScene(d: Dict) {
    Has(d, "title") || Has(d, "file")
  }

  /** `validate_performer_data`: a name. */
  predicate ValidatePerformer(d: Dict) {
    Has(d, "name")
  }

  /** `validate_gallery_data`: a title or folder information. */
  predicate ValidateGallery(d: Dict) {
    Has(d, "title") || Has(d, "folder")
  }

  // ---------------------------------------------------------------------------
  // Properties of the rule list
  // ---------------------------------------------------------------------------

  /** Without a mapping under `file`, any performer key makes the record a performer,
      whatever gallery or scene keys it also has. */
  lemma PerformerKeysWin(d: Dict)
    requires !FileIsMapping(d) && AnyKey(d, PerformerKeys)
    ensures DetectType(d) == PerformerKind
  {
  }

  /** A record is a gallery exactly when it reaches the third rule with `performers` and one
      of `folder`/`scenes`; in particular `folder` or `scenes` alone never makes one. */
  lemma GalleryExactly(d: Dict)
    ensures DetectType(d) == GalleryKind
            <==> !FileIsMapping(d) && !AnyKey(d, PerformerKeys)
                 && (Has(d, "folder") || Has(d, "scenes")) && Has(d, "performers")
  {
    if Has(d, "folder") || Has(d, "scenes") {
      assert AnyKey(d, GalleryKeys) by {
        if Has(d, "folder") { assert Has(d, GalleryKeys[0]); } else { assert Has(d, GalleryKeys[1]); }
      }
    }
    if AnyKey(d, GalleryKeys) {
      var i :| 0 <= i < |GalleryKeys| && Has(d, GalleryKeys[i]);
      assert i == 0 || i == 1;
    }
  }

  /** The kind is "scene" for a mapping under `file`, or, failing the performer and gallery
      rules, for any of the basic metadata keys. */
  lemma SceneExactly(d: Dict)
    ensures DetectType(d) == SceneKind
            <==> FileIsMapping(d)
                 || (!AnyKey(d, PerformerKeys) && !(AnyKey(d, GalleryKeys) && Has(d, "performers"))
                     && AnyKey(d, BasicKeys))
  {
    if FileIsMapping(d) {
      assert Has(d, SceneFileKeys[0]);
    }
  }

  /** A record whose only key is `file`, holding something other than a mapping, is of no
      known kind: the first rule's key test passes but its mapping test does not, and no
      later rule looks at `file`. */
  lemma PlainFileIsUnknown(v: Json)
    requires !v.JObj?
    ensures DetectType([("file", v)]) == UnknownKind
  {
    var d: Dict := [("file", v)];
    forall k | k != "file"
      ensures !Has(d, k)
    {
    }
    assert !AnyKey(d, PerformerKeys);
    assert !AnyKey(d, BasicKeys);
  }

  /** Two records with the same keys, that agree on whether `file` is a mapping, get the
      same kind: no other value is inspected. */
  lemma KindDependsOnKeysOnly(a: Dict, b: Dict)
    requires forall k :: Has(a, k) <==> Has(b, k)
    requires FileIsMapping(a) <==> FileIsMapping(b)
    ensures DetectType(a) == DetectType(b)
  {
    assert AnyKey(a, SceneFileKeys) == AnyKey(b, SceneFileKeys);
    assert AnyKey(a, PerformerKeys) == AnyKey(b, PerformerKeys);
    assert AnyKey(a, GalleryKeys) == AnyKey(b, GalleryKeys);
    assert AnyKey(a, BasicKeys) == AnyKey(b, BasicKeys);
  }

  /** The validators look at key presence only: two records with the same keys are valid
      or invalid together, whatever values they hold. */
  lemma ValidatorsReadKeysOnly(a: Dict, b: Dict)
    requires forall k :: Has(a, k) <==> Has(b, k)
    ensures ValidateScene(a) <==> ValidateScene(b)
    ensures ValidatePerformer(a) <==> ValidatePerformer(b)
    ensures ValidateGallery(a) <==> ValidateGallery(b)
  {
  }

  /** Each validator accepts a record holding just its key, with any value, and rejects the
      empty record. */
  lemma ValidatorKeys(v: Json)
    ensures ValidateScene([("title", v)]) && ValidateScene([("file", v)])
    ensures ValidatePerformer([("name", v)])
    ensures ValidateGallery([("title", v)]) && ValidateGallery([("folder", v)])
    ensures !ValidateScene([]) && !ValidatePerformer([]) && !ValidateGallery([])
    ensures !ValidatePerformer([("title", v)]) && !ValidateGallery([("file", v)])
  {
  }

  /** A record detected as a scene through its `file` mapping also validates as a scene. */
  lemma FileSceneValidates(d: Dict)
    requires FileIsMapping(d)
    ensures DetectType(d) == SceneKind && ValidateScene(d)
  {
  }

  /** Detection does not imply validity: a bare `gender` record is a performer without a
      name, and a `scenes` + `performers` record is a gallery without title or folder. */
  lemma DetectionIsNotValidation()
    ensures DetectType([("gender", JStr("female"))]) == PerformerKind
    ensures !ValidatePerformer([("gender", JStr("female"))])
    ensures DetectType([("scenes", JList([])), ("performers", JList([]))]) == GalleryKind
    ensures !ValidateGallery([("scenes", JList([])), ("performers", JList([]))])
  {
    var p: Dict := [("gender", JStr("female"))];
    assert Has(p, PerformerKeys[0]);
    var g: Dict := [("scenes", JList([])), ("performers", JList([]))];
    assert Has(g, GalleryKeys[1]);
    assert !FileIsMapping(g);
    assert !AnyKey(g, PerformerKeys);
  }
}

=== FILE: pipeline.dfy ===
/**
  The two stages together: what the NFO of a converted record holds, for the properties
  that only show once the converter's output is rendered (`convert` followed by
  `generate`, as the command-line tool chains them).
 */
module Pipeline {
  import opened Wrappers
  import opened PyText
  import opened Json
  import opened Dates
  import opened Seqs
  import opened Records
  import opened Converters
  import opened Elements
  import opened NfoGenerator

  /** Both stages accept the same three kinds and reject every other one with the same
      ValueError; their own failures are never ValueErrors. */
  lemma SameKindsRejected(d: Dict, nfo: Dict, kind: string)
    ensures Convert(d, kind) == Err(ValueError("Unsupported data type: " + kind))
            <==> kind !in {"scene", "performer", "gallery"}
    ensures Generate(nfo, kind) == Err(ValueError("Unsupported data type: " + kind))
            <==> kind !in {"scene", "performer", "gallery"}
  {
    GenerateKinds(nfo, kind);
  }

  /** The movie input the renderer reads from a dict whose lists iterate. */
  function MovieRead(nfo: Dict): (m: MovieInput)
    requires MovieTree(nfo).Ok?
    ensures MovieTree(nfo).value == MovieOf(m)
  {
    ReadMovie(nfo, Iterate(GetOr(nfo, "genres", JList([]))).value,
              Iterate(GetOr(nfo, "actors", JList([]))).value)
  }

  /** A converted scene always renders: its `genres` and `actors`, when set, are lists. */
  lemma ConvertedSceneRenders(d: Dict)
    requires ConvertScene(d).Ok?
    ensures MovieTree(ConvertScene(d).value).Ok?
    ensures MovieRead(ConvertScene(d).value).genres
            == (if Genres(d).Some? then Genres(d).value.items else [])
    ensures MovieRead(ConvertScene(d).value).actors
            == (if ActorsSlot(d).Some? then ActorsSlot(d).value.items else [])
  {
    SceneLists(d);
  }

  /** A converted gallery always renders, for the same reason. */
  lemma ConvertedGalleryRenders(d: Dict)
    requires ConvertGallery(d).Ok?
    ensures MovieTree(ConvertGallery(d).value).Ok?
  {
    GalleryLists(d);
  }

  /** A gallery's NFO always has exactly one `<userrating>`, with text "0": the converter
      never sets a rating and the renderer falls back to the int 0. */
  lemma GalleryRatingIsZero(d: Dict)
    requires ConvertGallery(d).Ok?
    ensures MovieTree(ConvertGallery(d).value).Ok?
    ensures WithTag(MovieTree(ConvertGallery(d).value).value.children, "userrating")
            == [TextElem("userrating", JStr("0"))]
  {
    ConvertedGalleryRenders(d);
    var m := MovieRead(ConvertGallery(d).value);
    assert m.userrating == JInt(0) by {
      GalleryRecord(d);
    }
    assert Str(JInt(0)) == JStr("0");
    MovieUserRating(m);
  }

  /** A scene with a truthy url gets exactly one `<uniqueid type="stash" default="true">`
      holding the url, and a scene without one gets none. */
  lemma SceneUniqueIdElement(d: Dict)
    requires ConvertScene(d).Ok?
    ensures MovieTree(ConvertScene(d).value).Ok?
    ensures WithTag(MovieTree(ConvertScene(d).value).value.children, "uniqueid")
            == if Truthy(Lookup(d, "url"))
               then [Elem("uniqueid", [("type", JStr("stash")), ("default", JStr("true"))], Lookup(d, "url"), [])]
               else []
  {
    ConvertedSceneRenders(d);
    var m := MovieRead(ConvertScene(d).value);
    assert m.uniqueid == if Truthy(Lookup(d, "url")) then UniqueId(d).value else JNull by {
      SceneStudioAndId(d);
    }
    UniqueIdFromUrl(m, d);
  }

  /** The `<uniqueid>` of a movie whose `uniqueid` is the record built from `d`'s url. */
  lemma UniqueIdFromUrl(m: MovieInput, d: Dict)
    requires m.uniqueid == if Truthy(Lookup(d, "url")) then UniqueId(d).value else JNull
    ensures WithTag(MovieOf(m).children, "uniqueid")
            == if Truthy(Lookup(d, "url"))
               then [Elem("uniqueid", [("type", JStr("stash")), ("default", JStr("true"))], Lookup(d, "url"), [])]
               else []
  {
    assert MovieTags[8] == "uniqueid" && MovieBlocks(m)[8] == UniqueIdElems(m.uniqueid);
    MovieChildren(m, 8);
    if Truthy(Lookup(d, "url")) {
      UniqueIdOfUrl(d);
    }
  }

  /** The `<uniqueid>` element rendered from the record `UniqueId` builds. */
  lemma UniqueIdOfUrl(d: Dict)
    requires Truthy(Lookup(d, "url"))
    ensures UniqueIdElems(UniqueId(d).value)
            == [Elem("uniqueid", [("type", JStr("stash")), ("default", JStr("true"))], Lookup(d, "url"), [])]
  {
    var u := UniqueId(d).value;
    assert Truthy(u) && u.JObj?;
    GetFirst(u.fields, 0);
    GetFirst(u.fields, 1);
    GetFirst(u.fields, 2);
    assert GetOr(u.fields, "type", JStr("stash")) == JStr("stash");
    assert Truthy(Lookup(u.fields, "default"));
    assert GetOr(u.fields, "value", JStr("")) == Lookup(d, "url");
    assert [("type", JStr("stash"))] + [("default", JStr("true"))]
           == [("type", JStr("stash")), ("default", JStr("true"))];
  }

  /** In a scene's NFO, `<premiered>` is the normalised date, present exactly when the date
      is set. */
  lemma ScenePremieredElement(d: Dict)
    requires ConvertScene(d).Ok?
    ensures MovieTree(ConvertScene(d).value).Ok?
    ensures WithTag(MovieTree(ConvertScene(d).value).value.children, "premiered")
            == if Truthy(Lookup(d, "date"))
               then [TextElem("premiered", JStr(NormalizeDate(Lookup(d, "date").s)))]
               else []
  {
    ConvertedSceneRenders(d);
    var m := MovieRead(ConvertScene(d).value);
    var date := Lookup(d, "date");
    var p := if Truthy(date) then Some(NormalizeDate(date.s)) else None;
    assert m.premiered == if p.Some? then JStr(p.value) else JNull by {
      SceneDates(d);
    }
    PremieredFromDate(m, p);
  }

  /** The `<premiered>` element of a movie whose premiere date is a non-empty string, or
      unset. */
  lemma PremieredFromDate(m: MovieInput, p: Option<string>)
    requires m.premiered == if p.Some? then JStr(p.value) else JNull
    requires p.Some? ==> p.value != ""
    ensures WithTag(MovieOf(m).children, "premiered")
            == if p.Some? then [TextElem("premiered", JStr(p.value))] else []
  {
    MovieOptional(m);
  }

  /** `<year>` is present exactly when the original date parses strictly as `%Y-%m-%d`,
      and then holds that year. */
  lemma SceneYearElement(d: Dict)
    requires ConvertScene(d).Ok?
    ensures MovieTree(ConvertScene(d).value).Ok?
    ensures var date := Lookup(d, "date");
            WithTag(MovieTree(ConvertScene(d).value).value.children, "year")
            == if Truthy(date) && Strptime(date.s, Iso).Some?
               then [TextElem("year", JStr(IntText(Strptime(date.s, Iso).value.year)))]
               else []
  {
    ConvertedSceneRenders(d);
    SceneDates(d);
    var date := Lookup(d, "date");
    var y := if Truthy(date) then StrictYear(date) else None;
    YearFromSlot(MovieRead(ConvertScene(d).value), y);
  }

  /** The `<year>` element of a movie whose year is a positive int, or unset. */
  lemma YearFromSlot(m: MovieInput, y: Option<int>)
    requires m.year == (if y.Some? then JInt(y.value) else JNull)
    requires y.Some? ==> y.value >= 1
    ensures WithTag(MovieOf(m).children, "year")
            == if y.Some? then [TextElem("year", JStr(IntText(y.value)))] else []
  {
    MovieOptional(m);
    if y.Some? {
      assert Str(JInt(y.value)) == JStr(IntText(y.value));
    }
  }

  /** A timestamp `YYYY-MM-DDT...` gives `<premiered>` with the date part and no `<year>`:
      the year is taken from the unsplit string, which the strict parse rejects. */
  lemma TimestampHasNoYear(d: Dict, date: string, time: string)
    requires ConvertScene(d).Ok?
    requires Lookup(d, "date") == JStr(date + "T" + time) && Canonical(date)
    ensures MovieTree(ConvertScene(d).value).Ok?
    ensures WithTag(MovieTree(ConvertScene(d).value).value.children, "premiered")
            == [TextElem("premiered", JStr(date))]
    ensures WithTag(MovieTree(ConvertScene(d).value).value.children, "year") == []
  {
    var s := date + "T" + time;
    TimestampKeepsDate(date, time);
    assert Strptime(s, Iso).None?;
    assert NormalizeDate(s) == date;
    ScenePremieredElement(d);
    SceneYearElement(d);
  }

  /** A clip shorter than a minute has runtime 0, which the renderer drops: no `<runtime>`;
      from a minute on, `<runtime>` holds the whole minutes. */
  lemma SceneRuntimeElement(d: Dict, secs: int)
    requires ConvertScene(d).Ok?
    requires GetOr(d, "file", JObj([])).JObj?
    requires Lookup(GetOr(d, "file", JObj([])).fields, "duration") == JInt(secs)
    requires secs > 0
    ensures MovieTree(ConvertScene(d).value).Ok?
    ensures secs < 60 ==> WithTag(MovieTree(ConvertScene(d).value).value.children, "runtime") == []
    ensures secs >= 60 ==> WithTag(MovieTree(ConvertScene(d).value).value.children, "runtime")
                           == [TextElem("runtime", JStr(IntText(secs / 60)))]
  {
    ConvertedSceneRenders(d);
    var m := MovieRead(ConvertScene(d).value);
    assert m.runtime == JInt(secs / 60) by {
      SceneRecord(d);
      RuntimeOfSeconds(d, secs);
    }
    RuntimeFromMinutes(m, secs / 60);
  }

  /** The `<runtime>` element of a movie whose runtime is a whole number of minutes. */
  lemma RuntimeFromMinutes(m: MovieInput, mins: int)
    requires m.runtime == JInt(mins) && mins >= 0
    ensures WithTag(MovieOf(m).children, "runtime")
            == if mins > 0 then [TextElem("runtime", JStr(IntText(mins)))] else []
  {
    MovieOptional(m);
    assert Str(JInt(mins)) == JStr(IntText(mins));
  }
}

=== FILE: pytext.dfy ===
/**
  The few Python string and number primitives the converter and the generator lean on:
  `str()` of an int, `float()` of a string, `int()` of a float, `str.split`, `str.join`,
  and the whitespace test behind `str.strip()`.
 */
module PyText {
  import opened Wrappers

  predicate IsDigit(c: char) {
    '0' <= c <= '9'
  }

  predicate AllDigits(s: string) {
    forall i :: 0 <= i < |s| ==> IsDigit(s[i])
  }

  function DigitChar(d: nat): (c: char)
    requires d < 10
    ensures IsDigit(c) && c as int - '0' as int == d
  {
    (d + '0' as int) as char
  }

  /** Value of a run of ASCII decimal digits, most significant first. */
  function DigitsValue(s: string): nat
    requires AllDigits(s)
    decreases |s|
  {
    if |s| == 0 then 0
    else DigitsValue(s[..|s| - 1]) * 10 + (s[|s| - 1] as int - '0' as int)
  }

  function Pow10(k: nat): (p: nat)
    ensures p >= 1
  {
    if k == 0 then 1 else 10 * Pow10(k - 1)
  }

  /** `str(n)` for a non-negative int: shortest decimal rendering. */
  function NatText(n: nat): (s: string)
    ensures 0 < |s| && AllDigits(s)
    ensures n < 10 <==> |s| == 1
    decreases n
  {
    if n < 10 then [DigitChar(n)] else NatText(n / 10) + [DigitChar(n % 10)]
  }

  /** `str(n)` for any int. */
  function IntText(n: int): (s: string)
    ensures 0 < |s|
    ensures n >= 0 ==> AllDigits(s)
    ensures n < 0 ==> s[0] == '-' && AllDigits(s[1..])
  {
    if n < 0 then "-" + NatText(-n) else NatText(n)
  }

  /** `'%0*d' % (width, n)`: at least `width` digits, left padded with zeros. */
  function ZeroPad(n: nat, width: nat): (s: string)
    ensures AllDigits(s) && DigitsValue(s) == n
    ensures |s| == if |NatText(n)| < width then width else |NatText(n)|
  {
    var t := NatText(n);
    NatTextValue(n);
    if |t| < width then
      var z := seq(width - |t|, _ => '0');
      ZerosValue(z, t);
      z + t
    else t
  }

  lemma {:induction false} NatTextValue(n: nat)
    ensures DigitsValue(NatText(n)) == n
    decreases n
  {
    if n >= 10 {
      var t := NatText(n);
      assert t[..|t| - 1] == NatText(n / 10);
      NatTextValue(n / 10);
    }
  }

  /** Leading zeros do not change the value of a digit run. */
  lemma {:induction false} ZerosValue(z: string, t: string)
    requires forall i :: 0 <= i < |z| ==> z[i] == '0'
    requires AllDigits(t)
    ensures AllDigits(z + t) && DigitsValue(z + t) == DigitsValue(t)
    decreases |t|
  {
    if |t| == 0 {
      ZerosOnlyValue(z);
      assert z + t == z;
    } else {
      var s := z + t;
      assert s[..|s| - 1] == z + t[..|t| - 1];
      ZerosValue(z, t[..|t| - 1]);
    }
  }

  lemma {:induction false} ZerosOnlyValue(z: string)
    requires forall i :: 0 <= i < |z| ==> z[i] == '0'
    ensures AllDigits(z) && DigitsValue(z) == 0
    decreases |z|
  {
    if |z| > 0 {
      ZerosOnlyValue(z[..|z| - 1]);
    }
  }

  /** Position of the first `c` in `s`, or `|s|` when there is none (`str.find` without the -1). */
  function IndexOf(s: string, c: char): (k: nat)
    ensures k <= |s|
    ensures k < |s| ==> s[k] == c
    ensures forall i :: 0 <= i < k ==> s[i] != c
    decreases |s|
  {
    if |s| == 0 then 0 else if s[0] == c then 0 else 1 + IndexOf(s[1..], c)
  }

  /** `s.split(c)` with a one-character separator. */
  function Split(s: string, c: char): (parts: seq<string>)
    ensures |parts| >= 1
    ensures forall p :: p in parts ==> c !in p
    decreases |s|
  {
    var k := IndexOf(s, c);
    if k == |s| then [s] else [s[..k]] + Split(s[k + 1..], c)
  }

  /** `sep.join(parts)`. */
  function Join(parts: seq<string>, sep: string): string
    decreases |parts|
  {
    if |parts| == 0 then ""
    else if |parts| == 1 then parts[0]
    else parts[0] + sep + Join(parts[1..], sep)
  }

  /** The first piece of a split is everything before the first separator. */
  lemma SplitHead(s: string, c: char)
    ensures Split(s, c)[0] == s[..IndexOf(s, c)]
  {
  }

  /** Joining the pieces of a split with the separator gives the string back. */
  lemma {:induction false} JoinSplit(s: string, c: char)
    ensures Join(Split(s, c), [c]) == s
    decreases |s|
  {
    var k := IndexOf(s, c);
    if k < |s| {
      var rest := Split(s[k + 1..], c);
      assert Split(s, c) == [s[..k]] + rest;
      JoinSplit(s[k + 1..], c);
      JoinCons(s[..k], rest, [c]);
      assert s == s[..k] + [c] + s[k + 1..];
    }
  }

  /** A character in no part and not in the separator is not in the joined string. */
  lemma {:induction false} JoinAvoids(parts: seq<string>, sep: string, c: char)
    requires forall i :: 0 <= i < |parts| ==> c !in parts[i]
    requires c !in sep
    ensures c !in Join(parts, sep)
    decreases |parts|
  {
    if |parts| > 1 {
      JoinAvoids(parts[1..], sep, c);
    }
  }

  lemma JoinCons(a: string, xs: seq<string>, sep: string)
    requires |xs| >= 1
    ensures Join([a] + xs, sep) == a + sep + Join(xs, sep)
  {
    assert ([a] + xs)[1..] == xs;
  }

  /** Without the character, the search runs to the end. */
  lemma IndexOfAbsent(s: string, c: char)
    requires c !in s
    ensures IndexOf(s, c) == |s|
  {
    assert forall i :: 0 <= i < |s| ==> s[i] != c;
  }

  /** Splitting a join of separator-free pieces gives the pieces back. */
  lemma {:induction false} SplitJoin(parts: seq<string>, c: char)
    requires |parts| >= 1
    requires forall p :: p in parts ==> c !in p
    ensures Split(Join(parts, [c]), c) == parts
    decreases |parts|
  {
    assert c !in parts[0];
    if |parts| == 1 {
      IndexOfAbsent(parts[0], c);
    } else {
      SplitJoin(parts[1..], c);
      SplitCons(parts[0], c, Join(parts[1..], [c]));
      assert parts == [parts[0]] + parts[1..];
    }
  }

  /** A separator-free head followed by the separator splits off as the first piece. */
  lemma SplitCons(a: string, c: char, rest: string)
    requires c !in a
    ensures Split(a + [c] + rest, c) == [a] + Split(rest, c)
  {
    var s := a + [c] + rest;
    IndexOfAfter(a, c, rest);
    assert s[..|a|] == a;
    assert s[|a| + 1..] == rest;
  }

  lemma Join3(parts: seq<string>, sep: string)
    requires |parts| == 3
    ensures Join(parts, sep) == parts[0] + sep + parts[1] + sep + parts[2]
  {
    assert Join(parts[2..], sep) == parts[2];
    assert Join(parts[1..], sep) == parts[1] + sep + parts[2];
  }

  /** Splitting three separator-free pieces joined by the separator. */
  lemma SplitThree(a: string, b: string, c: string, sep: char)
    requires sep !in a && sep !in b && sep !in c
    ensures Split(a + [sep] + b + [sep] + c, sep) == [a, b, c]
  {
    Join3([a, b, c], [sep]);
    SplitJoin([a, b, c], sep);
  }

  lemma IndexOfAfter(a: string, c: char, b: string)
    requires c !in a
    ensures IndexOf(a + [c] + b, c) == |a|
  {
    var s := a + [c] + b;
    assert forall i :: 0 <= i < |a| ==> s[i] == a[i];
    assert s[|a|] == c;
  }

  /** `float(s)` for a string, over the plain decimal grammar `[+-] digits [. digits]`
      (at least one digit on either side of the point). */
  function ParseFloat(s: string): (r: Option<real>)
  {
    var negative := |s| > 0 && s[0] == '-';
    match ParseUnsignedFloat(Unsigned(s))
    case Some(u) => Some(if negative then -u else u)
    case None => None
  }

  /** The text after an optional leading sign. */
  function Unsigned(s: string): string {
    if |s| > 0 && (s[0] == '+' || s[0] == '-') then s[1..] else s
  }

  function ParseUnsignedFloat(s: string): (r: Option<real>)
    ensures r.Some? ==> r.value >= 0.0
  {
    var k := IndexOf(s, '.');
    var whole := s[..k];
    var frac := if k < |s| then s[k + 1..] else "";
    if AllDigits(whole) && AllDigits(frac) && |whole| + |frac| > 0 then
      Some(DecimalValue(whole, frac))
    else None
  }

  /** Value of `whole.frac` for two digit runs. */
  function DecimalValue(whole: string, frac: string): (v: real)
    requires AllDigits(whole) && AllDigits(frac)
    ensures v >= 0.0
    ensures frac == "" ==> v == DigitsValue(whole) as real
  {
    if frac == "" then DigitsValue(whole) as real
    else DigitsValue(whole) as real + DigitsValue(frac) as real / Pow10(|frac|) as real
  }

  /** `float(str(n))`: the decimal rendering of an int reads back as that number. */
  lemma ParseFloatIntText(n: int)
    ensures ParseFloat(IntText(n)) == Some(n as real)
  {
    var m: nat := if n < 0 then -n else n;
    var t := NatText(m);
    assert ParseUnsignedFloat(t) == Some(m as real) by {
      ParseDigitRun(t);
      NatTextValue(m);
    }
    if n < 0 {
      ParseNegated(t, m as real);
      assert IntText(n) == "-" + t;
    } else {
      assert IsDigit(t[0]);
      assert Unsigned(t) == t;
    }
  }

  lemma ParseNegated(t: string, v: real)
    requires ParseUnsignedFloat(t) == Some(v)
    ensures ParseFloat("-" + t) == Some(-v)
  {
    var s := "-" + t;
    assert Unsigned(s) == t;
    assert s[0] == '-';
  }

  /** A plain run of digits reads back as its value. */
  lemma ParseDigitRun(t: string)
    requires 0 < |t| && AllDigits(t)
    ensures ParseUnsignedFloat(t) == Some(DigitsValue(t) as real)
  {
    assert '.' !in t by {
      assert forall i :: 0 <= i < |t| ==> t[i] != '.';
    }
    IndexOfAbsent(t, '.');
    assert t[..|t|] == t;
  }

  /** `int(x)` for a float: truncation toward zero. */
  function Trunc(x: real): (r: int)
    ensures x >= 0.0 ==> 0 <= r && r as real <= x < r as real + 1.0
    ensures x < 0.0 ==> r <= 0 && r as real - 1.0 < x <= r as real
  {
    if x >= 0.0 then x.Floor else -((-x).Floor)
  }

  /** For whole seconds Python's `int(float(d) / 60)` agrees with division rounded toward zero. */
  lemma TruncDiv60(d: int)
    ensures d >= 0 ==> Trunc(d as real / 60.0) == d / 60
    ensures d < 0 ==> Trunc(d as real / 60.0) == -((-d) / 60)
  {
    var x := d as real / 60.0;
    if d >= 0 {
      var q := d / 60;
      assert q as real <= x < q as real + 1.0;
    } else {
      var q := (-d) / 60;
      assert -(q as real) - 1.0 < x <= -(q as real);
    }
  }

  /** `repr(x)` digits after the point for a float in [0, 1): truncated to `n` places. */
  function FracDigits(f: real, n: nat): (s: string)
    requires 0.0 <= f < 1.0
    ensures |s| == n && AllDigits(s)
    decreases n
  {
    if n == 0 then ""
    else
      var d := (f * 10.0).Floor;
      [DigitChar(d)] + FracDigits(f * 10.0 - d as real, n - 1)
  }

  function TrimTrailingZeros(s: string): (t: string)
    ensures |t| <= |s| && t == s[..|t|]
    ensures |t| > 0 ==> t[|t| - 1] != '0'
  {
    if |s| > 0 && s[|s| - 1] == '0' then TrimTrailingZeros(s[..|s| - 1]) else s
  }

  /** `str(x)` for a float, read off its exact value: positional notation when
      1e-4 <= |x| < 1e16 (whole values as `N.0`, others with their decimal expansion cut at
      17 places and trailing zeros dropped), scientific notation `d.ddde+XX` otherwise. */
  function FloatText(r: real): string
  {
    if r < 0.0 then "-" + UnsignedFloatText(-r) else UnsignedFloatText(r)
  }

  function UnsignedFloatText(a: real): string
    requires a >= 0.0
  {
    if a == 0.0 then "0.0"
    else if a >= 10000000000000000.0 then LargeFloatText(a)
    else if a < 0.0001 then SmallFloatText(a)
    else if a == a.Floor as real then NatText(a.Floor) + ".0"
    else FractionalText(a)
  }

  /** The rendering of a positive float that is not whole. */
  function FractionalText(a: real): string
    requires a >= 0.0
  {
    var w := a.Floor;
    NatText(w) + "." + TrimTrailingZeros(FracDigits(a - w as real, 17))
  }

  /** `d` or `d.ddd` from significant digits with trailing zeros already dropped. */
  function Mantissa(sig: string): string {
    if |sig| <= 1 then sig else sig[..1] + "." + sig[1..]
  }

  /** The exponent suffix: sign and at least two digits (`e+16`, `e-05`). */
  function ExponentText(e: int): (t: string)
    ensures |t| >= 4 && t[0] == 'e'
  {
    if e < 0 then "e-" + ZeroPad(-e, 2) else "e+" + ZeroPad(e, 2)
  }

  /** A float of 1e16 or more: the first 17 digits of its integer part, in scientific
      notation. */
  function LargeFloatText(a: real): string
    requires a >= 10000000000000000.0
  {
    var digits := NatText(a.Floor);
    var sig := TrimTrailingZeros(digits[..if |digits| < 17 then |digits| else 17]);
    Mantissa(sig) + ExponentText(|digits| - 1)
  }

  /** The least `k` from `k0` on that brings `a * 10^k` to 1 or more: the `k` for which
      `10^-k <= a < 10^(1-k)`. A double is never below 10^-324, so the search stops at
      400 places. */
  function SmallExponent(a: real, k0: nat): (k: nat)
    requires 0.0 < a
    ensures k0 <= k
    decreases 400 - k0
  {
    if k0 >= 400 || Shift(a, k0) >= 1.0 then k0 else SmallExponent(a, k0 + 1)
  }

  /** `a * 10^k`, one decimal place at a time. */
  function Shift(a: real, k: nat): (r: real)
    ensures a >= 0.0 ==> r >= 0.0
  {
    if k == 0 then a else 10.0 * Shift(a, k - 1)
  }

  /** A float below 1e-4: scaled by `10^k` into [1, 10), then written with 17 significant
      places. */
  function SmallFloatText(a: real): string
    requires 0.0 < a < 0.0001
  {
    var k := SmallExponent(a, 1);
    ScientificText(Shift(a, k), -(k as int))
  }

  /** `m * 10^e` for `m` in [1, 10): the integer digit, the fraction cut at 16 places with
      trailing zeros dropped, and the exponent. */
  function ScientificText(m: real, e: int): string
    requires m >= 0.0
  {
    var d := m.Floor;
    Mantissa(NatText(d) + TrimTrailingZeros(FracDigits(m - d as real, 16))) + ExponentText(e)
  }

  /** A whole float below 1e16 in magnitude prints as its integer rendering followed by
      ".0". */
  lemma FloatTextWhole(n: int)
    requires -10000000000000000 < n < 10000000000000000
    ensures FloatText(n as real) == IntText(n) + ".0"
  {
    if n < 0 {
      WholeText(-n);
      assert n as real == -((-n) as real);
    } else {
      WholeText(n);
    }
  }

  lemma WholeText(m: nat)
    requires m < 10000000000000000
    ensures UnsignedFloatText(m as real) == NatText(m) + ".0"
  {
    var a := m as real;
    assert a.Floor == m;
    if m != 0 {
      assert 1.0 <= a < 10000000000000000.0;
    }
  }

  function Zeros(n: nat): (z: string)
    ensures |z| == n
  {
    seq(n, _ => '0')
  }

  lemma {:induction false} FracDigitsZero(n: nat)
    ensures FracDigits(0.0, n) == Zeros(n)
  {
    if n > 0 {
      FracDigitsZero(n - 1);
      assert Zeros(n) == ['0'] + Zeros(n - 1);
    }
  }

  lemma {:induction false} TrimZeros(s: string, n: nat)
    requires s != [] && s[|s| - 1] != '0'
    ensures TrimTrailingZeros(s + Zeros(n)) == s
    decreases n
  {
    var t := s + Zeros(n);
    if n == 0 {
      assert t == s;
    } else {
      assert t[|t| - 1] == '0';
      assert t[..|t| - 1] == s + Zeros(n - 1);
      TrimZeros(s, n - 1);
    }
  }

  lemma {:induction false} TrimAllZeros(n: nat)
    ensures TrimTrailingZeros(Zeros(n)) == ""
  {
    if n > 0 {
      assert Zeros(n)[..n - 1] == Zeros(n - 1);
      TrimAllZeros(n - 1);
    }
  }

  lemma {:induction false} NatTextPow10(k: nat)
    ensures NatText(Pow10(k)) == "1" + Zeros(k)
  {
    if k > 0 {
      NatTextPow10(k - 1);
      assert Pow10(k) / 10 == Pow10(k - 1) && Pow10(k) % 10 == 0;
      assert "1" + Zeros(k) == ("1" + Zeros(k - 1)) + "0";
    }
  }

  lemma {:induction false} Pow10Add(i: nat, j: nat)
    ensures Pow10(i + j) == Pow10(i) * Pow10(j)
    decreases i
  {
    if i > 0 {
      Pow10Add(i - 1, j);
    }
  }

  lemma {:induction false} Pow10Grows(i: nat, j: nat)
    requires i <= j
    ensures Pow10(i) <= Pow10(j)
    decreases j
  {
    if i < j {
      Pow10Grows(i, j - 1);
    }
  }

  lemma Pow10Large(k: nat)
    requires k >= 16
    ensures Pow10(k) >= 10000000000000000
  {
    Pow10Sixteen();
    Pow10Grows(16, k);
  }

  lemma Pow10Sixteen()
    ensures Pow10(16) == 10000000000000000
  {
    assert Pow10(4) == 10000;
    Pow10Add(4, 4);
    Pow10Add(8, 8);
  }

  /** From 1e16 on, floats print in scientific notation: the power of ten `10^k` prints as
      `1e+k` (`str(1e16) == '1e+16'`). */
  lemma FloatTextPow10(k: nat)
    requires k >= 16
    ensures FloatText(Pow10(k) as real) == "1" + ExponentText(k)
  {
    Pow10Large(k);
    LargePow10Text(k);
  }

  /** Exponents are written with a sign and at least two digits. */
  lemma ExponentTexts()
    ensures ExponentText(16) == "e+16"
    ensures ExponentText(-5) == "e-05"
    ensures ExponentText(100) == "e+100"
  {
    assert ZeroPad(16, 2) == "16";
    assert ZeroPad(5, 2) == "05";
    assert ZeroPad(100, 2) == "100";
  }

  /** A power of ten from 1e16 on prints as `1e+k`. */
  lemma LargePow10Text(k: nat)
    requires k >= 16 && Pow10(k) >= 10000000000000000
    ensures LargeFloatText(Pow10(k) as real) == "1" + ExponentText(k)
  {
    var digits := NatText((Pow10(k) as real).Floor);
    assert digits == "1" + Zeros(k) by {
      assert (Pow10(k) as real).Floor == Pow10(k);
      NatTextPow10(k);
    }
    PrefixOfZeros(k);
    TrimZeros("1", 16);
  }

  lemma PrefixOfZeros(k: nat)
    requires k >= 16
    ensures ("1" + Zeros(k))[..17] == "1" + Zeros(16)
  {
  }

  /** Below 1e-4, floats print in scientific notation: `str(2e-05) == '2e-05'`. */
  lemma FloatTextSmall(x: real)
    requires x == 0.00002
    ensures FloatText(x) == "2" + ExponentText(-5)
  {
    assert Shift(x, 4) == 0.2 && Shift(x, 5) == 2.0;
    assert SmallExponent(x, 1) == 5;
    assert FloatText(x) == ScientificText(2 as real, -5);
    ScientificDigit(2, -5);
    assert NatText(2) == "2";
  }

  /** Every positive value below 1e-4 prints in exponent form, with an exponent of -5 or
      less. */
  lemma FloatTextSmallForm(x: real)
    requires 0.0 < x < 0.0001
    ensures exists m: string, e: int :: e <= -5 && FloatText(x) == m + ExponentText(e)
  {
    SmallExponentFive(x);
    var k := SmallExponent(x, 1);
    var a := Shift(x, k);
    var e := -(k as int);
    assert FloatText(x) == UnsignedFloatText(x) == SmallFloatText(x);
    assert SmallFloatText(x) == ScientificText(a, e);
    var m := ScientificSuffix(a, e);
    assert FloatText(x) == m + ExponentText(e);
  }

  /** Scientific text ends in its exponent. */
  lemma ScientificSuffix(a: real, e: int) returns (m: string)
    requires a >= 0.0
    ensures ScientificText(a, e) == m + ExponentText(e)
  {
    var d := a.Floor;
    m := Mantissa(NatText(d) + TrimTrailingZeros(FracDigits(a - d as real, 16)));
  }

  /** Below 1e-4 at least five places are needed to bring a value to 1. */
  lemma SmallExponentFive(a: real)
    requires 0.0 < a < 0.0001
    ensures SmallExponent(a, 1) >= 5
  {
    assert Shift(a, 1) == 10.0 * a;
    assert Shift(a, 2) == 100.0 * a;
    assert Shift(a, 3) == 1000.0 * a;
    assert Shift(a, 4) == 10000.0 * a;
    assert SmallExponent(a, 1) == SmallExponent(a, 5);
  }

  /** A single significant digit prints without a point. */
  lemma ScientificDigit(d: nat, e: int)
    requires 1 <= d < 10
    ensures ScientificText(d as real, e) == NatText(d) + ExponentText(e)
  {
    assert (d as real).Floor == d;
    assert TrimTrailingZeros(FracDigits(0.0, 16)) == "" by {
      FracDigitsZero(16);
      TrimAllZeros(16);
    }
  }

  /** `c.isspace()`: the characters `str.strip()` removes. */
  predicate IsSpace(c: char) {
    var n := c as int;
    (0x09 <= n <= 0x0d) || (0x1c <= n <= 0x20) || n == 0x85 || n == 0xa0 || n == 0x1680
    || (0x2000 <= n <= 0x200a) || n == 0x2028 || n == 0x2029 || n == 0x202f || n == 0x205f
    || n == 0x3000
  }

  /** `not line.strip()`: the line is empty or made only of whitespace. */
  predicate IsBlank(line: string) {
    forall i :: 0 <= i < |line| ==> IsSpace(line[i])
  }
}

=== FILE: records.dfy ===
/**
  The converter builds every output dict the same way: a fixed list of keys, assigned in
  source order, some of them only under a condition. A record is written as that key list
  and the list of values assigned (`None` where the condition did not hold); the dict is
  the assignments that happened, in order.
 */
module Records {
  import opened Wrappers
  import opened Json
  import opened Seqs

  /** The assignment of the key at position `i`, when its condition held. */
  function FillAt(keys: seq<string>): (Option<Json>, nat) -> Option<(string, Json)> {
    (v: Option<Json>, i: nat) => if i < |keys| && v.Some? then Some((keys[i], v.value)) else None
  }

  /** The dict built by assigning `keys[i] = vals[i]` in order, skipping the `None`s. */
  function Present(keys: seq<string>, vals: seq<Option<Json>>): (d: Dict)
    ensures |d| <= |vals|
  {
    FilterMap(vals, FillAt(keys))
  }

  predicate Distinct(keys: seq<string>) {
    forall i, j :: 0 <= i < j < |keys| ==> keys[i] != keys[j]
  }

  /** Position of `k` in `keys` (|keys| when absent): the rank that orders a record's keys. */
  function Rank(keys: seq<string>, k: string): (r: nat)
    ensures r <= |keys|
    ensures r < |keys| ==> keys[r] == k
    ensures forall i :: 0 <= i < r ==> keys[i] != k
    decreases |keys|
  {
    if keys == [] then 0 else if keys[0] == k then 0 else 1 + Rank(keys[1..], k)
  }

  /** The keys of `d` all come from `keys` and appear in the order `keys` lists them. */
  predicate InKeyOrder(d: Dict, keys: seq<string>) {
    (forall i :: 0 <= i < |d| ==> Rank(keys, d[i].0) < |keys|)
    && (forall i, j :: 0 <= i < j < |d| ==> Rank(keys, d[i].0) < Rank(keys, d[j].0))
  }

  lemma DistinctAt(keys: seq<string>, i: nat, j: nat)
    requires Distinct(keys) && i < |keys| && j < |keys| && i != j
    ensures keys[i] != keys[j]
  {
    if i > j {
      assert keys[j] != keys[i];
    }
  }

  lemma RankOfDistinct(keys: seq<string>, p: nat)
    requires Distinct(keys) && p < |keys|
    ensures Rank(keys, keys[p]) == p
  {
  }

  /** Reading a key back from the built dict gives what its assignment stored, or nothing
      when the assignment was skipped. */
  lemma SlotGet(keys: seq<string>, vals: seq<Option<Json>>, p: nat)
    requires Distinct(keys) && |vals| == |keys| && p < |keys|
    ensures Get(Present(keys, vals), keys[p]) == vals[p]
  {
    var d := Present(keys, vals);
    var ks := Kept(vals, FillAt(keys));
    var key := keys[p];
    FilterMapSpec(vals, FillAt(keys));
    assert forall k :: 0 <= k < |d| ==> FillAt(keys)(vals[ks[k]], ks[k]) == Some(d[k]);
    assert forall k :: 0 <= k < |d| ==> d[k].0 == keys[ks[k]] && Some(d[k].1) == vals[ks[k]];
    match vals[p]
    case Some(v) =>
      assert FillAt(keys)(vals[p], p).Some?;
      assert p in ks;
      var k :| 0 <= k < |ks| && ks[k] == p;
      assert d[k] == (key, v);
      var w := Get(d, key).value;
      var k' :| 0 <= k' < |d| && d[k'] == (key, w);
      assert keys[ks[k']] == key == keys[p];
      assert k' == k;
    case None =>
      assert p !in ks;
      forall k | 0 <= k < |d|
        ensures d[k].0 != key
      {
        DistinctAt(keys, ks[k], p);
      }
  }

  /** In a dict whose keys are exactly `keys`, in order, each key finds its own entry and
      no other key finds anything. */
  lemma GetListed(fs: Dict, keys: seq<string>, k: string)
    requires Distinct(keys) && |fs| == |keys|
    requires forall i :: 0 <= i < |fs| ==> fs[i].0 == keys[i]
    ensures forall p :: 0 <= p < |keys| && keys[p] == k ==> Get(fs, k) == Some(fs[p].1)
    ensures k !in keys ==> Get(fs, k) == None
  {
    forall p | 0 <= p < |keys| && keys[p] == k
      ensures Get(fs, k) == Some(fs[p].1)
    {
      assert forall i :: 0 <= i < p ==> fs[i].0 != fs[p].0;
      GetFirst(fs, p);
    }
  }

  /** A key that no assignment names is never in the built dict. */
  lemma NoSlotNoKey(keys: seq<string>, vals: seq<Option<Json>>, key: string)
    requires key !in keys
    ensures !Has(Present(keys, vals), key)
  {
    var d := Present(keys, vals);
    var ks := Kept(vals, FillAt(keys));
    FilterMapSpec(vals, FillAt(keys));
    forall k | 0 <= k < |d|
      ensures d[k].0 != key
    {
      assert FillAt(keys)(vals[ks[k]], ks[k]) == Some(d[k]);
    }
  }

  /** The built dict lists its keys in assignment order. */
  lemma PresentInOrder(keys: seq<string>, vals: seq<Option<Json>>)
    requires Distinct(keys) && |vals| == |keys|
    ensures InKeyOrder(Present(keys, vals), keys)
  {
    var d := Present(keys, vals);
    var ks := Kept(vals, FillAt(keys));
    FilterMapSpec(vals, FillAt(keys));
    forall i | 0 <= i < |d|
      ensures Rank(keys, d[i].0) == ks[i]
    {
      assert FillAt(keys)(vals[ks[i]], ks[i]) == Some(d[i]);
      RankOfDistinct(keys, ks[i]);
    }
  }
}

=== FILE: seqs.dfy ===
/**
  An order-preserving "map, skipping some" over a sequence, the shape of every
  `for i, x in enumerate(xs): ... continue ... append` loop in the converter, with the
  positions of the kept elements made explicit.
 */
module Seqs {
  import opened Wrappers

  /** Apply `f` to every element together with its position and keep the results that are
      present, in order. */
  function FilterMap<A, B>(xs: seq<A>, f: (A, nat) -> Option<B>): (r: seq<B>)
    ensures |r| == |Kept(xs, f)| <= |xs|
    decreases |xs|
  {
    if xs == [] then []
    else
      var n := |xs| - 1;
      match f(xs[n], n)
      case Some(y) => FilterMap(xs[..n], f) + [y]
      case None => FilterMap(xs[..n], f)
  }

  /** The positions whose results `FilterMap` keeps. */
  function Kept<A, B>(xs: seq<A>, f: (A, nat) -> Option<B>): (ks: seq<nat>)
    ensures |ks| <= |xs|
    ensures forall k :: 0 <= k < |ks| ==> ks[k] < |xs|
    decreases |xs|
  {
    if xs == [] then []
    else
      var n := |xs| - 1;
      if f(xs[n], n).Some? then Kept(xs[..n], f) + [n] else Kept(xs[..n], f)
  }

  predicate StrictlyIncreasing(ks: seq<nat>) {
    forall k, l :: 0 <= k < l < |ks| ==> ks[k] < ks[l]
  }

  /** What `FilterMap` computes, position by position: the k-th result is `f` of the element
      at the k-th kept position, the kept positions increase, and a position is kept exactly
      when `f` gives a result there. */
  lemma FilterMapSpec<A, B>(xs: seq<A>, f: (A, nat) -> Option<B>)
    ensures |FilterMap(xs, f)| == |Kept(xs, f)|
    ensures StrictlyIncreasing(Kept(xs, f))
    ensures forall k :: 0 <= k < |Kept(xs, f)| ==>
              f(xs[Kept(xs, f)[k]], Kept(xs, f)[k]) == Some(FilterMap(xs, f)[k])
    ensures forall i :: 0 <= i < |xs| ==> (f(xs[i], i).Some? <==> i in Kept(xs, f))
  {
    KeptSpec(xs, f);
    FilterMapAt(xs, f);
  }

  /** The kept positions increase, and are exactly those where `f` gives a result. */
  lemma {:induction false} KeptSpec<A, B>(xs: seq<A>, f: (A, nat) -> Option<B>)
    ensures StrictlyIncreasing(Kept(xs, f))
    ensures forall i :: 0 <= i < |xs| ==> (f(xs[i], i).Some? <==> i in Kept(xs, f))
    decreases |xs|
  {
    if xs != [] {
      var n := |xs| - 1;
      var init := xs[..n];
      KeptSpec(init, f);
      var ks := Kept(xs, f);
      var ks' := Kept(init, f);
      assert forall i :: 0 <= i < n ==> xs[i] == init[i];
      if f(xs[n], n).Some? {
        assert ks == ks' + [n];
      } else {
        assert ks == ks';
        assert n !in ks';
      }
      forall i | 0 <= i < |xs|
        ensures f(xs[i], i).Some? <==> i in ks
      {
        if i < n {
          assert i in ks <==> i in ks';
        }
      }
    }
  }

  /** The k-th result is `f` of the element at the k-th kept position. */
  lemma {:induction false} FilterMapAt<A, B>(xs: seq<A>, f: (A, nat) -> Option<B>)
    ensures forall k :: 0 <= k < |Kept(xs, f)| ==>
              f(xs[Kept(xs, f)[k]], Kept(xs, f)[k]) == Some(FilterMap(xs, f)[k])
    decreases |xs|
  {
    if xs != [] {
      var n := |xs| - 1;
      var init := xs[..n];
      FilterMapAt(init, f);
      var ks := Kept(xs, f);
      var ys := FilterMap(xs, f);
      var ks' := Kept(init, f);
      var ys' := FilterMap(init, f);
      if f(xs[n], n).Some? {
        assert ks == ks' + [n] && ys == ys' + [f(xs[n], n).value];
      } else {
        assert ks == ks' && ys == ys';
      }
      forall k | 0 <= k < |ks|
        ensures f(xs[ks[k]], ks[k]) == Some(ys[k])
      {
        if k < |ks'| {
          assert ks[k] == ks'[k] && ys[k] == ys'[k];
          assert xs[ks'[k]] == init[ks'[k]];
        }
      }
    }
  }

  /** When `f` keeps every element, nothing is dropped: the result is as long as the input. */
  lemma {:induction false} KeepAll<A, B>(xs: seq<A>, f: (A, nat) -> Option<B>)
    requires forall i :: 0 <= i < |xs| ==> f(xs[i], i).Some?
    ensures |FilterMap(xs, f)| == |xs|
    decreases |xs|
  {
    if xs != [] {
      var n := |xs| - 1;
      assert forall i :: 0 <= i < n ==> xs[..n][i] == xs[i];
      KeepAll(xs[..n], f);
    }
  }

  /** The blocks laid end to end. */
  function Concat<T>(bs: seq<seq<T>>): (r: seq<T>)
    decreases |bs|
  {
    if bs == [] then [] else Concat(bs[..|bs| - 1]) + bs[|bs| - 1]
  }

  /** A property holds of every element of the laid-out blocks exactly when it holds of
      every element of every block. */
  lemma {:induction false} ConcatAll<T>(bs: seq<seq<T>>, P: T -> bool)
    ensures (forall i :: 0 <= i < |Concat(bs)| ==> P(Concat(bs)[i]))
            <==> (forall k, j :: 0 <= k < |bs| && 0 <= j < |bs[k]| ==> P(bs[k][j]))
    decreases |bs|
  {
    if bs != [] {
      var n := |bs| - 1;
      var init := bs[..n];
      ConcatAll(init, P);
      var c' := Concat(init);
      var c := Concat(bs);
      assert c == c' + bs[n];
      assert forall k :: 0 <= k < n ==> init[k] == bs[k];
      if forall i :: 0 <= i < |c| ==> P(c[i]) {
        assert forall i :: 0 <= i < |c'| ==> c'[i] == c[i];
        forall k, j | 0 <= k < |bs| && 0 <= j < |bs[k]|
          ensures P(bs[k][j])
        {
          if k == n {
            assert c[|c'| + j] == bs[n][j];
          } else {
            assert init[k][j] == bs[k][j];
          }
        }
      }
      if forall k, j :: 0 <= k < |bs| && 0 <= j < |bs[k]| ==> P(bs[k][j]) {
        forall i | 0 <= i < |c|
          ensures P(c[i])
        {
          if i < |c'| {
            assert c[i] == c'[i];
          } else {
            assert c[i] == bs[n][i - |c'|];
          }
        }
      }
    }
  }

  /** Laying out the first `n` blocks gives a prefix of laying out all of them. */
  lemma {:induction false} ConcatPrefix<T>(bs: seq<seq<T>>, n: nat)
    requires n <= |bs|
    ensures |Concat(bs[..n])| <= |Concat(bs)|
    ensures Concat(bs)[..|Concat(bs[..n])|] == Concat(bs[..n])
    decreases |bs|
  {
    if n < |bs| {
      var m := |bs| - 1;
      assert bs[..m][..n] == bs[..n];
      ConcatPrefix(bs[..m], n);
      assert Concat(bs) == Concat(bs[..m]) + bs[m];
    } else {
      assert bs[..n] == bs;
    }
  }

  /** Laying out two runs of blocks one after the other is laying out each run. */
  lemma {:induction false} ConcatAppend<T>(bs: seq<seq<T>>, cs: seq<seq<T>>)
    ensures Concat(bs + cs) == Concat(bs) + Concat(cs)
    decreases |cs|
  {
    if cs == [] {
      assert bs + cs == bs;
    } else {
      var n := |cs| - 1;
      var bc := bs + cs;
      assert bc[..|bc| - 1] == bs + cs[..n];
      assert bc[|bc| - 1] == cs[n];
      ConcatAppend(bs, cs[..n]);
    }
  }
}

=== FILE: wrappers.dfy ===
/**
  Failure-compatible wrappers shared by every module: an Option for "value or nothing"
  and a Result whose failure side is one of the Python exceptions the converter and
  the generator can let escape.
 */
module Wrappers {

  datatype Option<+T> = None | Some(value: T) {

    predicate IsFailure() {
      None?
    }

    function PropagateFailure<U>(): Option<U>
      requires None?
    {
      None
    }

    function Extract(): T
      requires Some?
    {
      value
    }

    function GetOr(default: T): T {
      match this
      case Some(v) => v
      case None => default
    }
  }

  /** The exception classes that reach the caller of `convert` or `generate` (`ExpatError` is
      minidom's parse error). */
  datatype Error =
    | ValueError(msg: string)
    | TypeError(msg: string)
    | AttributeError(msg: string)
    | ExpatError(msg: string)

  datatype Result<+T> = Ok(value: T) | Err(error: Error) {

    predicate IsFailure() {
      Err?
    }

    function PropagateFailure<U>(): Result<U>
      requires Err?
    {
      Err(error)
    }

    function Extract(): T
      requires Ok?
    {
      value
    }
  }
}
